=== FILE: README.md ===
# DBGUIProject storage core, modelled in Dafny

DBGUIProject is a Swing desktop application for writers. It keeps users,
stories, characters and traits in a MySQL database. The Java code reaches the
database through four DAO classes (`UserDAO`, `StoryDAO`, `CharacterDAO`,
`TraitDAO`) and keeps the logged-in user in a process-wide session
(`UserDAO.currentUser`). The `Homepage` panel shows one card per story and per
character.

This project models that core as a functional state machine:

- `Tables` is an abstract table. It holds rows in storage order, each with a
  key handed out by an AUTO_INCREMENT counter. It supports the statement
  shapes the DAOs issue: INSERT with a generated key, SELECT of the first
  matching row, SELECT of all matching rows, and UPDATE / DELETE with the
  affected-row count.
- `Database` holds the four tables and the session. It also defines the
  environment's choices, each passed in as a parameter:
  - whether a DAO instance got a connection;
  - whether a statement raised an `SQLException`;
  - what an INSERT reported.
- `UserDao`, `StoryDao`, `CharacterDao` and `TraitDao` model one DAO method
  each as a transition. A transition returns the method's result and the next
  state. Read-only methods return only their result.
- `StoryRecord`, `UserRecord` and `CharacterRecord` model the entity classes
  exactly as written. Each has a `View` of what the getters return.
- `Passwords` models `hasher`'s encoding loop. SHA-256 itself is a parameter
  that returns 32 bytes (section 6.2 of FIPS 180-4).
- `CardText` and `Homepage` model the card panels: the add button at slot 0,
  then cards tagged with entity ids. They cover search, card creation, insert
  after the button, the initial load and refresh-or-remove.
- `JavaLang` models what the code needs from Java:
  - null references;
  - calls that may throw;
  - string concatenation of `null`;
  - `toLowerCase` (ASCII only), `trim` and `contains`.

The code is modelled as written, including its defects. The proofs spell out
where it departs from what its own documentation comments promise:

- `Story.getGenre`, `getStatus` and `getSynopsis` all return the title, so
  every stored story has genre = status = synopsis = title
  (`StoryDao.StoryWritesKeepTitleEcho`). A new story's "Draft" status never
  reaches the store (`Homepage.InsertStoryCard`).
- `hasher` formats each byte with `"02x"`. That pattern has no `%`, so
  `String.format` returns it unchanged (`Passwords.FormatNoDirective`), where
  `"%02x"` would give the byte's two hex digits (`Passwords.FormatHexByte`).
  Every password therefore hashes to the same 96-character string, although the
  documentation comment promises 64 hexadecimal digits
  (`Passwords.HasherIsNotLowerHex`). As a result, `userLogin` accepts any
  password for a registered user (`UserDao.RegisterThenLoginWithAnyPassword`).
  The javadoc of `userLogin` (src/DAO/UserDAO.java:46-57) says it compares
  the hashed password with the stored hash and returns true only when
  authentication succeeds; since every hash is the same, that comparison
  cannot reject a wrong password.
- `updateCharacter` binds parameter 5 on a statement with four placeholders.
  Every call therefore throws and changes nothing
  (`CharacterDao.UpdateCharacter`).
- `renameTrait` renames only the first row with the old name. A later
  existence check for the old name is still true when another row carried it
  (`TraitDao.RenameThenCheck`). The javadoc of `renameTrait`
  (src/DAO/TraitDAO.java:72-76) describes renaming the trait with the old
  name; afterwards the old name is gone only when it was on one row.
- `createNewUser` never checks that the username is free, although usernames
  are meant to be unique (`UserDao.CreateNewUser`).
- A freshly created card is always visible, whatever the search bar holds
  (`Homepage.NewCardIgnoresSearch`).
- A failed character creation still inserts a card reading "null" with id 0
  (`Homepage.InsertCharacterCard`).
- `getStoryById` turns an SQL error into `null`, so refreshing a story card
  after such an error removes the card even though the story still exists
  (`Homepage.RefreshCardDisplay`).
- `loadInitialData` iterates over a listing that is `null` after a database
  error. The resulting NullPointerException is not caught
  (`Homepage.LoadInitialData`).

## Model

| member | source | states |
|---|---|---|
| `JavaLang.Lower` | src/UI/Homepage.java:171-173 | ASCII `toLowerCase`: same length, each upper-case letter replaced by its lower-case letter, every other character kept, so no upper-case letter is left |
| `JavaLang.LowerIdempotent` | src/UI/Homepage.java:142 | lower-casing an already lower-cased text changes nothing, so the search compares both sides in one case |
| `JavaLang.TrimEmptyIffAllTrimmed` | src/UI/Homepage.java:193 | `s.trim().isEmpty()` holds exactly when every character of `s` is at or below U+0020 |
| `JavaLang.Contains` | src/UI/Homepage.java:142 | `contains` is true exactly when the needle occurs at some index of the text |
| `JavaLang.EmptyIsContained` | src/UI/Homepage.java:142 | every text contains the empty string |
| `Tables.Insert` | src/DAO/StoryDAO.java:55-65 | an INSERT appends exactly one row, whose generated key no row of a valid table carries, and keeps the table valid |
| `Tables.FindFirst` | src/DAO/UserDAO.java:68-71 | `result.next()` yields the first row in storage order that matches; none is found exactly when no row matches |
| `Tables.Filter` | src/DAO/StoryDAO.java:136-152 | a SELECT of all matching rows returns exactly the matching rows and keeps keys distinct |
| `Tables.Count` | src/DAO/UserDAO.java:154 | the affected-row count is positive exactly when some row matches |
| `Tables.DeleteWhere` | src/DAO/UserDAO.java:152-154 | DELETE keeps exactly the non-matching rows, reports a positive count exactly when a row matched, and keeps the table valid |
| `Tables.UpdateWhere` | src/DAO/StoryDAO.java:112-123 | UPDATE rewrites the columns of matching rows in place, leaves every other row and every key as it was, and keeps the table valid |
| `Database.Initial` | src/DAO/UserDAO.java:33-36 | a fresh database: every table empty and well-formed, and no session, which is how every process starts (the tables themselves persist between runs) |
| `StoryRecord.Default` | src/models/Story.java:20 | `new Story()` reads id 0 and null everywhere else |
| `StoryRecord.Make` | src/models/Story.java:22-29 | the constructor stores all six arguments, yet genre, status and synopsis read back as the title |
| `StoryRecord.GetGenre` | src/models/Story.java:45-47 | `getGenre` returns the title |
| `StoryRecord.GetStatus` | src/models/Story.java:52-54 | `getStatus` returns the title |
| `StoryRecord.GetSynopsis` | src/models/Story.java:59-61 | `getSynopsis` returns the title |
| `StoryRecord.SetId` | src/models/Story.java:34-36 | `setId` changes what `getId` returns and nothing else observable |
| `StoryRecord.SetTitle` | src/models/Story.java:41-43 | `setTitle` changes what the title, genre, status and synopsis getters return, and nothing else |
| `StoryRecord.SetGenre` | src/models/Story.java:48-50 | `setGenre` writes its field but no getter observes the change |
| `StoryRecord.SetStatus` | src/models/Story.java:55-57 | `setStatus` writes its field but no getter observes the change |
| `StoryRecord.SetSynopsis` | src/models/Story.java:62-64 | `setSynopsis` writes its field but no getter observes the change |
| `StoryRecord.SetDate` | src/models/Story.java:69-71 | `setDate` overwrites the title and leaves the creation date and id unchanged |
| `StoryRecord.SetDateActsAsSetTitle` | src/models/Story.java:41-43 | `setDate` and `setTitle` have the same effect |
| `UserRecord.Default` | src/models/User.java:22 | `new User()` reads id 0 and null everywhere else |
| `UserRecord.Make` | src/models/User.java:24-30 | the five-argument constructor keeps only id and username; email, password and date stay null |
| `UserRecord.SetId` | src/models/User.java:35-37 | `setID` changes only what `getID` returns |
| `UserRecord.SetName` | src/models/User.java:42-44 | `setName` changes only what `getName` returns |
| `UserRecord.SetEmail` | src/models/User.java:49-51 | `setEmail` changes only what `getEmail` returns |
| `UserRecord.SetPass` | src/models/User.java:56-58 | `setPass` changes only what `getPass` returns |
| `UserRecord.SetDate` | src/models/User.java:63-65 | `setDate` changes only what `getDate` returns |
| `CharacterRecord.Default` | src/models/Character.java:23 | `new Character()` reads ids 0 and null strings |
| `CharacterRecord.Make` | src/models/Character.java:34-40 | the five-argument constructor stores each argument where its getter reads it |
| `CharacterRecord.SetCharacterId` | src/models/Character.java:56-58 | `setCharacterId` changes only what `getCharacterId` returns |
| `CharacterRecord.SetUserId` | src/models/Character.java:74-76 | `setUserId` changes only what `getUserId` returns |
| `CharacterRecord.SetName` | src/models/Character.java:92-94 | `setName` changes only what `getName` returns |
| `CharacterRecord.SetDescription` | src/models/Character.java:110-112 | `setDescription` changes only what `getDescription` returns |
| `CharacterRecord.SetBackstory` | src/models/Character.java:128-130 | `setBackstory` changes only what `getBackstory` returns |
| `Passwords.HexDigit` | src/Utils/Passwords.java:34-36 | a digit below 16 becomes a lower-case hex character that reads back as the digit |
| `Passwords.HexByte` | src/Utils/Passwords.java:34-36 | `%02x` of a byte is two lower-case hex digits that read back as the byte's unsigned value |
| `Passwords.FormatFrom` | src/Utils/Passwords.java:47 | `String.format` with one byte argument throws only on a '%' directive |
| `Passwords.FormatNoDirective` | src/Utils/Passwords.java:47 | a pattern without '%' is returned unchanged, whatever the byte |
| `Passwords.FormatHexByte` | src/Utils/Passwords.java:34-36 | the documented pattern "%02x" yields exactly the byte's two hex digits |
| `Passwords.FormatByte` | src/Utils/Passwords.java:47 | `String.format("02x", b)` yields "02x" for every byte |
| `Passwords.Encode` | src/Utils/Passwords.java:45-49 | the encoding is three characters per digest byte, each position holding the pattern's character at that offset |
| `Passwords.EncodeLoop` | src/Utils/Passwords.java:45-49 | the StringBuilder loop computes exactly the encoding |
| `Passwords.Hasher` | src/Utils/Passwords.java:41-53 | the hash of any password is 96 characters of "02x" repeated |
| `Passwords.EncodeIgnoresBytes` | src/Utils/Passwords.java:46-48 | two digests of equal length encode to the same text |
| `Passwords.HasherIgnoresPassword` | src/Utils/Passwords.java:41-49 | every password hashes to the same string |
| `Passwords.HasherIsNotLowerHex` | src/Utils/Passwords.java:34-36 | against the documented 64 lower-case hex digits: the length is not 64 and the third character is 'x' |
| `UserDao.SessionUser` | src/DAO/UserDAO.java:74 | the session user built at login carries the row's id and username, with email, password and date unset |
| `UserDao.UserLogin` | src/DAO/UserDAO.java:59-83 | no connection or an SQL error gives false; otherwise true exactly when the first row with that username stores `hasher(password)`; success sets the session to that row, failure changes nothing |
| `UserDao.CreateNewUser` | src/DAO/UserDAO.java:98-111 | true exactly when a row was inserted; that row is `(username, email, hasher(password))` with a fresh key, appended without any duplicate check; failure changes nothing |
| `UserDao.CheckUsername` | src/DAO/UserDAO.java:123-133 | true exactly when no SQL error occurs and some row has that username |
| `UserDao.DeleteUser` | src/DAO/UserDAO.java:146-163 | removes exactly the rows with that id and keeps the AUTO_INCREMENT counter, true exactly when one existed; the session is cleared exactly when a row was deleted and the session user has that id |
| `UserDao.CreateNewUserKeepsAllHashed` | src/DAO/UserDAO.java:100-106 | every stored password is some `hasher` output, and registration keeps that so |
| `UserDao.LoginIgnoresPassword` | src/DAO/UserDAO.java:65-77 | against such a store, a login's outcome does not depend on the password typed |
| `UserDao.RegisterThenLoginWithAnyPassword` | src/DAO/UserDAO.java:65-76 | after registering a new username, login with any password succeeds and the session becomes the new row |
| `UserDao.LoginUnknownUserFails` | src/DAO/UserDAO.java:71 | a username no row carries never logs in, and nothing changes |
| `UserDao.DeleteSelfClearsSession` | src/DAO/UserDAO.java:155-157 | deleting the session user's own row clears the session |
| `StoryDao.ToStory` | src/DAO/StoryDAO.java:85-92 | a story read from a row has the row's key and creation date, and its title, genre, status and synopsis all read as the title column |
| `StoryDao.Rewrite` | src/DAO/StoryDAO.java:117-120 | the four columns updateStory sets all receive the story's title; owner and creation date stay |
| `StoryDao.BoundColumns` | src/DAO/StoryDAO.java:49-53 | the genre, status and synopsis bound on insert are all the title |
| `StoryDao.CreateStory` | src/DAO/StoryDAO.java:43-68 | on an insert, appends one row owned by the session user and returns the story with its id set to the fresh key; zero rows affected or an SQL error throws and changes nothing |
| `StoryDao.GetStoryById` | src/DAO/StoryDAO.java:78-102 | non-null exactly when there is no SQL error and a row has that key, whatever its owner; the result is built from the first such row |
| `StoryDao.UpdateStory` | src/DAO/StoryDAO.java:111-125 | rewrites title, genre, status and synopsis (all the title) of the rows with the story's id, keeps owner and date, and silently does nothing for an absent id |
| `StoryDao.OwnedRows` | src/DAO/StoryDAO.java:136 | the rows kept are exactly those owned by the given user |
| `StoryDao.GetAllStories` | src/DAO/StoryDAO.java:134-159 | null exactly on an SQL error; otherwise the stories listed are exactly those built from the session user's rows, and in a well-formed store no story id is listed twice |
| `StoryDao.DeleteStory` | src/DAO/StoryDAO.java:167-174 | removes exactly the rows with that key and nothing else, and keeps the AUTO_INCREMENT counter so a deleted id is never handed out again; an absent key changes nothing |
| `StoryDao.StoryWritesKeepTitleEcho` | src/DAO/StoryDAO.java:50-53 | create, update and delete all keep every stored story's genre, status and synopsis equal to its title, and a fresh, empty database has that property; a database written by other code need not |
| `StoryDao.CreateKeepsTitleEcho` | src/DAO/StoryDAO.java:43-68 | a created row echoes its title into genre, status and synopsis, and leaves the earlier rows as they were |
| `StoryDao.UpdateKeepsTitleEcho` | src/DAO/StoryDAO.java:111-125 | an update writes the new title into all four columns of the rows it touches and leaves the rest alone |
| `StoryDao.DeleteKeepsTitleEcho` | src/DAO/StoryDAO.java:167-174 | deleting keeps only rows that were stored before, so the title echo survives |
| `StoryDao.CreateThenGet` | src/DAO/StoryDAO.java:43-102 | fetching a created story by its new id returns its title, echoed into genre, status and synopsis, and the creation timestamp |
| `StoryDao.UpdateThenGet` | src/DAO/StoryDAO.java:111-125 | fetching an updated story returns the new title, echoed into the other three columns |
| `StoryDao.DeleteThenGetIsNull` | src/DAO/StoryDAO.java:167-174 | after a delete, fetching the id gives null |
| `StoryDao.ListingIsPerUser` | src/DAO/StoryDAO.java:136-141 | no listed story carries the key of another user's row |
| `CharacterDao.ToCharacter` | src/DAO/CharacterDAO.java:84-90 | a fetched character reads back the row's key, owner and columns |
| `CharacterDao.CreateCharacter` | src/DAO/CharacterDAO.java:39-64 | on an insert, appends one row owned by the session user from the name, description and backstory getters, and returns the character with its id set to the fresh key; otherwise throws and changes nothing |
| `CharacterDao.GetCharacterById` | src/DAO/CharacterDAO.java:74-94 | throws exactly on an SQL error; otherwise non-null exactly when a row has that key, built from the first such row |
| `CharacterDao.UpdateCharacter` | src/DAO/CharacterDAO.java:103-116 | binding the id as parameter 5 of a four-placeholder statement throws, so every call throws and leaves the store unchanged |
| `CharacterDao.OwnedRows` | src/DAO/CharacterDAO.java:127 | the rows kept are exactly those owned by the given user |
| `CharacterDao.GetAllCharacters` | src/DAO/CharacterDAO.java:125-148 | null exactly on an SQL error; otherwise exactly the characters built from the session user's rows, and in a well-formed store no character id is listed twice |
| `CharacterDao.DeleteCharacter` | src/DAO/CharacterDAO.java:156-163 | removes exactly the rows with that key and nothing else, and keeps the AUTO_INCREMENT counter; an absent key changes nothing |
| `CharacterDao.CreateThenGet` | src/DAO/CharacterDAO.java:39-94 | fetching a created character returns its name, description and backstory under the session owner |
| `CharacterDao.DeleteThenGetIsNull` | src/DAO/CharacterDAO.java:156-163 | after a delete, fetching the id returns null |
| `TraitDao.AddTrait` | src/DAO/TraitDAO.java:54-69 | without a connection, false and no change; otherwise true exactly when one row `(name, session user)` was appended, with no duplicate check |
| `TraitDao.RenameTrait` | src/DAO/TraitDAO.java:84-106 | true exactly when connected, with no SQL error, and some row of any user has the old name; then only the first such row is renamed; otherwise nothing changes |
| `TraitDao.DeleteTrait` | src/DAO/TraitDAO.java:120-134 | removes every row with that name, of every user, and keeps the AUTO_INCREMENT counter; true exactly when one existed |
| `TraitDao.CheckTrait` | src/DAO/TraitDAO.java:146-156 | true exactly when no SQL error occurs and some row of any user has that name |
| `TraitDao.RenameThenCheck` | src/DAO/TraitDAO.java:90-98 | after a rename the new name exists, and the old name still exists exactly when the names coincide or the old name was on two rows |
| `TraitDao.RenameOnlyFirst` | src/DAO/TraitDAO.java:90-98 | a successful rename gives the first row with the old name the new name and leaves every other row as it was |
| `TraitDao.SecondNamedSurvives` | src/DAO/TraitDAO.java:90-98 | when two rows carry a name, the later one keeps it through a rename of the first |
| `TraitDao.DeleteThenCheck` | src/DAO/TraitDAO.java:126-129 | after a delete the name exists nowhere |
| `TraitDao.AddThenCheck` | src/DAO/TraitDAO.java:60-64 | after an add the name exists |
| `CardText.IndexOf` | src/UI/Homepage.java:172 | the position found holds the character, and no earlier one does |
| `CardText.StripTags` | src/UI/Homepage.java:172 | removing `<...>` spans never lengthens the text |
| `CardText.StripTagsKeepsOnlyInput` | src/UI/Homepage.java:172 | every character left after removing tags was in the input |
| `CardText.StripTagsLeavesNoTag` | src/UI/Homepage.java:172 | no '<' left after removing tags is followed anywhere by a '>', so no complete tag survives |
| `CardText.NoTagCons` | src/UI/Homepage.java:172 | a character put in front of tag-free text keeps it tag-free unless it is a '<' the text later closes |
| `CardText.StripLeadingTag` | src/UI/Homepage.java:172 | a complete leading tag is removed whole |
| `CardText.StripPlainPrefix` | src/UI/Homepage.java:172 | a prefix without '<' passes through unchanged, whatever follows it |
| `CardText.StripPlainText` | src/UI/Homepage.java:172 | text without '<' is left exactly as it was |
| `CardText.CleanText` | src/UI/Homepage.java:170-174 | the clean text is never longer than the label, and a label without '<' is only lower-cased |
| `CardText.StripWrapped` | src/UI/Homepage.java:287 | text wrapped in two opening and two closing tags is recovered exactly |
| `CardText.CleanCardLabel` | src/UI/Homepage.java:287 | the clean text of a card label is the lower-cased card text, for text without '<' |
| `CardText.NoCloseKept` | src/UI/Homepage.java:172 | text without '>' holds no tag, so every '<' in it stays |
| `CardText.LessThanSwallowsRest` | src/UI/Homepage.java:172 | a '<' in a card's text opens a span that the label's `</center>` closes, so the text after it is removed with the tags |
| `Homepage.NewPanel` | src/UI/Homepage.java:176-188 | a fresh panel holds only the add button |
| `Homepage.Matches` | src/UI/Homepage.java:142 | the empty query matches every card, and for a label without '<' matching is a case-insensitive substring test |
| `Homepage.Search` | src/UI/Homepage.java:132-168 | slot 0 and any non-card are untouched; each later card keeps label and id and becomes visible exactly when its clean text contains the lower-cased query |
| `Homepage.SearchIdempotent` | src/UI/Homepage.java:132-147 | searching twice for the same text is the same as searching once |
| `Homepage.SearchKeepsPanel` | src/UI/Homepage.java:136 | a search keeps the add button first and cards after it |
| `Homepage.EmptySearchShowsAll` | src/UI/Homepage.java:142 | an empty search bar shows every card |
| `Homepage.CreateCard` | src/UI/Homepage.java:278-311 | a new card is a card, visible whatever the search bar holds, and tagged with its id |
| `Homepage.CreateCardCleans` | src/UI/Homepage.java:287 | a new card's clean text is its text lower-cased, for text without '<', or "null" for a null text |
| `Homepage.LessThanHidesTail` | src/UI/Homepage.java:142 | a title holding a '<' cleans to the part before it, so a search for the rest hides its card |
| `Homepage.NewCardIgnoresSearch` | src/UI/Homepage.java:301-308 | a new card is visible even when it does not match the current search; only the next search hides it |
| `Homepage.StoryCard` | src/UI/Homepage.java:490 | a story's card carries the story's id |
| `Homepage.CharacterCard` | src/UI/Homepage.java:499 | a character's card carries the character's id |
| `Homepage.InsertAfterButton` | src/UI/Homepage.java:227 | `add(card, 1)` puts the card right after the add button and shifts the rest right |
| `Homepage.InsertThenRemove` | src/UI/Homepage.java:254 | removing the card just inserted at slot 1 restores the panel |
| `Homepage.AddFires` | src/UI/Homepage.java:193 | the add action fires only for a non-null, non-empty answer, and always for one that starts with a character above U+0020 |
| `Homepage.AddFiresIffSomeVisibleChar` | src/UI/Homepage.java:193 | the add action fires exactly for a non-null name with a character above U+0020 |
| `Homepage.DraftStory` | src/UI/Homepage.java:218-220 | the new story has the name as title and "Draft" in its status field |
| `Homepage.InsertStoryCard` | src/UI/Homepage.java:216-233 | on success, one row owned by the session user is appended whose status is the name, not "Draft", and its visible card goes right after the button; on failure nothing changes; the session, the other tables and the character panel never change |
| `Homepage.InsertCharacterCard` | src/UI/Homepage.java:241-257 | a card is always inserted after the button: on success for the new row, owned by the session user, on failure a "null" card with id 0 and an unchanged store; the session, the other tables and the story panel never change |
| `Homepage.AddStory` | src/UI/Homepage.java:190-198 | a blank or cancelled name, or an insert that fails, changes nothing; otherwise a row owned by the session user with the name as title is appended to the stories, and its card, labelled with the name and carrying the new key, goes after the button with the old cards shifted right; the session, the other tables and the character panel never change |
| `Homepage.AddCharacter` | src/UI/Homepage.java:200-208 | a blank or cancelled name changes nothing; otherwise, when the insert succeeds, a row owned by the session user with that name is appended and its card, carrying the new key, goes after the button; when it fails, a "null" card with id 0 goes there and the store is unchanged; the old cards shift right; the session, the other tables and the story panel never change |
| `Homepage.PrependOne` | src/UI/Homepage.java:452 | one more insertion at slot 1 extends the reversed run of cards after the button by the next card and shifts the old cards right |
| `Homepage.PrependAll` | src/UI/Homepage.java:451-460 | inserting cards one by one at slot 1 leaves them in reverse order after the button, followed by the old cards, and keeps the panel's shape |
| `Homepage.StoryCards` | src/UI/Homepage.java:450-451 | one card per listed story, in list order, each of them a card |
| `Homepage.CharacterCards` | src/UI/Homepage.java:456-457 | one card per listed character, in list order, each of them a card |
| `Homepage.LoadStoryCards` | src/UI/Homepage.java:450-453 | the story loop keeps slot 0, shows one card per story last first after it, then the old cards in their order, and keeps the panel's shape |
| `Homepage.LoadCharacterCards` | src/UI/Homepage.java:456-459 | the character loop keeps slot 0, shows one card per character last first after it, then the old cards in their order, and keeps the panel's shape |
| `Homepage.LoadInitialData` | src/UI/Homepage.java:448-471 | a failed listing throws a NullPointerException; otherwise each panel keeps its button, shows the session user's listing in reverse order after it, then its old cards in their order, and keeps its shape |
| `Homepage.FindCard` | src/UI/Homepage.java:510-514 | finds the first card tagged with the id; none is found exactly when no card has it |
| `Homepage.RefreshOrRemove` | src/UI/Homepage.java:507-537 | the first card for the id is removed for a null entity and replaced in place otherwise; with no such card, a non-null entity is inserted after the button and a null one changes nothing |
| `Homepage.RefreshCardDisplay` | src/UI/Homepage.java:481-506 | the store is untouched; a character fetch error leaves the panels as they were, while a story fetch error removes the card |
| `Homepage.DeleteStoryThenRefresh` | src/UI/Homepage.java:339-345 | deleting a story and refreshing removes its first card and keeps the others in order |
| `Homepage.DeleteCharacterThenRefresh` | src/UI/Homepage.java:339-345 | deleting a character and refreshing removes its first card |
| `Homepage.UpdateStoryThenRefresh` | src/UI/Homepage.java:406-424 | saving a story and refreshing replaces its card in place with a visible card showing the new title |

## Left out

- `DatabaseUtils` and JDBC are not part of this model. A DAO instance's
  connection is the parameter `Connection`, and a statement's failure is the
  parameter `Fault`. The static `StoryDAO` and `CharacterDAO` are modelled
  with a working connection: the NullPointerException raised when
  `DatabaseUtils.ConnecttoDB()` returns null is not modelled. In
  `createNewUser`, `checkUsername` and `checkTrait`, which dereference a null
  connection, the connection being present is a precondition. So is a
  logged-in user for every call that reads the session id.
- Java `int` is 32 bits, and keys and ids are unbounded integers here.
  Wrap-around of the AUTO_INCREMENT counter is not modelled.
- String parameters passed to the DAOs are taken as non-null. Story and
  character columns read back from the store may be NULL (`Nullable`); user
  and trait columns are taken as non-null. So the NullPointerException that
  `userLogin` raises when the stored password is NULL
  (`storedPassword.equals(...)`) is not modelled.
- SHA-256 is an uninterpreted function returning 32 bytes, so
  `password.getBytes()` with the platform charset is hidden inside it. The
  `NoSuchAlgorithmException` path is not modelled.
- The generated-key result set is assumed to return the key. The branch where
  `getGeneratedKeys().next()` is false and the id stays unset is not modelled.
- Whether deleting a user cascades to stories, characters and traits depends
  on a schema that is not shown. The model leaves those tables unchanged.
- An affected-row count is taken as the number of matching rows. MySQL's
  "changed rows" reporting for an UPDATE that writes equal values is not
  modelled.
- Usernames and trait names are matched exactly, as under a binary
  collation. The schema is not shown. Under MySQL's default case-insensitive
  collations, `userLogin`, `checkUsername`, `renameTrait`, `deleteTrait` and
  `checkTrait` would also match names differing only in letter case.
- Passwords.FormatFrom: models `String.format` only for the conversions the
  hasher could use ("%02x" and "%%"). Any other '%' directive is reported as
  an exception here, although Java accepts many of them.
- Swing is out of scope: dialogs, colours, layout, `revalidate`/`repaint`,
  mouse listeners, and the form wiring of `showCardDialog`. Only the
  delete-then-refresh and save-then-refresh sequences it triggers are stated
  as lemmas.
- The 300 ms debounce timers (`javax.swing.Timer`) are not modelled. A search
  is modelled as running directly on the query text.
- `closeConnection` only releases resources and is not modelled.
- `HomeLayout`, `TraitUI`, `TableModel` and `Traits` are not part of this
  model. They cover navigation, a regex table filter, a bare table model and
  a record no modelled path uses.
- `toLowerCase` is modelled for ASCII letters only. Unicode case mapping is
  not modelled.
- Story creation timestamps come from the database's `DEFAULT now()`. They
  are the parameter `now`.
- StoryDao.GetAllStories: states which stories are listed and, in a
  well-formed store, that none is listed twice; not their order
  (storage order). `Homepage.LoadInitialData` states the order relative to
  the list this function returns.
- CharacterDao.GetAllCharacters: states which characters are listed and, in
  a well-formed store, that none is listed twice; not their order (storage
  order), for the same reason.
- Tables.Filter: states which rows are kept, not that they keep their
  relative order. SQL gives no order without ORDER BY, and no modelled
  caller depends on one.
- Tables.DeleteWhere: states which rows survive, not their relative order,
  for the same reason.
- TraitDao.RenameTrait: states which single row is renamed only for a
  well-formed store, one whose keys are distinct. With duplicate keys the
  UPDATE by id would rename more than one row.

=== FILE: card_text.dfy ===
/**
  The text side of a Homepage card: the HTML label a card is given, and
  `getCleanText`, which removes every `<...>` span (`replaceAll("<[^>]*>", "")`)
  and lower-cases what is left.
 */
module CardText {
  import opened JavaLang

  /** Position of the first `c` in `s`. */
  function IndexOf(s: string, c: char): (r: nat)
    requires c in s
    ensures r < |s| && s[r] == c
    ensures forall k :: 0 <= k < r ==> s[k] != c
  {
    if s[0] == c then 0 else 1 + IndexOf(s[1..], c)
  }

  /**
    `replaceAll("<[^>]*>", "")`: scanning left to right, a '<' followed later
    by a '>' starts a span that runs to the first such '>' and is deleted;
    a '<' with no '>' after it stays.
   */
  function StripTags(s: string): (r: string)
    ensures |r| <= |s|
    decreases |s|
  {
    if |s| == 0 then ""
    else if s[0] == '<' && '>' in s[1..] then
      StripTags(s[IndexOf(s[1..], '>') + 2..])
    else
      [s[0]] + StripTags(s[1..])
  }

  /** Removing tags only deletes: every character left was in the input. */
  lemma {:induction false} StripTagsKeepsOnlyInput(s: string)
    ensures forall x :: x in StripTags(s) ==> x in s
    decreases |s|
  {
    if |s| == 0 {
    } else if s[0] == '<' && '>' in s[1..] {
      var rest := s[IndexOf(s[1..], '>') + 2..];
      StripTagsKeepsOnlyInput(rest);
      assert forall x :: x in rest ==> x in s;
    } else {
      StripTagsKeepsOnlyInput(s[1..]);
      assert forall x :: x in s[1..] ==> x in s;
    }
  }

  /** No '<' of `r` is followed, anywhere later, by a '>': `r` holds no complete tag. */
  predicate NoTag(r: string)
  {
    forall i, j :: 0 <= i < j < |r| && r[i] == '<' ==> r[j] != '>'
  }

  /** Putting one character in front keeps a text tag-free unless it opens a tag the text closes. */
  lemma NoTagCons(c: char, t: string)
    requires NoTag(t) && (c == '<' ==> '>' !in t)
    ensures NoTag([c] + t)
  {
    var r := [c] + t;
    forall i, j | 0 <= i < j < |r| && r[i] == '<'
      ensures r[j] != '>'
    {
      assert r[j] == t[j - 1];
      if i > 0 {
        assert r[i] == t[i - 1];
      }
    }
  }

  /** No complete tag survives. */
  lemma {:induction false} StripTagsLeavesNoTag(s: string)
    ensures NoTag(StripTags(s))
    decreases |s|
  {
    if |s| == 0 {
    } else if s[0] == '<' && '>' in s[1..] {
      var rest := s[IndexOf(s[1..], '>') + 2..];
      assert StripTags(s) == StripTags(rest);
      StripTagsLeavesNoTag(rest);
    } else {
      var tail := StripTags(s[1..]);
      assert StripTags(s) == [s[0]] + tail;
      StripTagsLeavesNoTag(s[1..]);
      StripTagsKeepsOnlyInput(s[1..]);
      NoTagCons(s[0], tail);
    }
  }

  /**
    `getCleanText`: tags removed, then lower-cased. It is never longer than
    the caption, and a caption without '<' is only lower-cased.
   */
  function CleanText(caption: string): (r: string)
    ensures |r| <= |caption|
    ensures '<' !in caption ==> r == Lower(caption)
  {
    assert '<' !in caption ==> StripTags(caption) == caption by {
      if '<' !in caption {
        StripPlainText(caption);
      }
    }
    Lower(StripTags(caption))
  }

  const LabelPrefix: string := "<html><center>"
  const LabelSuffix: string := "</center></html>"

  /** The label `createCard` gives a card showing `text`. */
  function CardLabel(text: string): string
  {
    LabelPrefix + text + LabelSuffix
  }

  /** `t` is one complete tag: '<', no '>', then '>'. */
  predicate IsTag(t: string)
  {
    && |t| >= 2 && t[0] == '<' && t[|t| - 1] == '>'
    && forall k :: 1 <= k < |t| - 1 ==> t[k] != '>'
  }

  /** A leading complete tag is deleted whole. */
  lemma StripLeadingTag(tag: string, rest: string)
    requires IsTag(tag)
    ensures StripTags(tag + rest) == StripTags(rest)
  {
    var s := tag + rest;
    assert s[1..][|tag| - 2] == '>';
    var k := IndexOf(s[1..], '>');
    assert k == |tag| - 2;
    assert s[k + 2..] == rest;
  }

  /** A first character other than '<' is kept as is. */
  lemma StripKeepsPlainHead(s: string)
    requires |s| > 0 && s[0] != '<'
    ensures StripTags(s) == [s[0]] + StripTags(s[1..])
  {
  }

  /** Text with no '<' passes through unchanged. */
  lemma {:induction false} StripPlainPrefix(text: string, rest: string)
    requires '<' !in text
    ensures StripTags(text + rest) == text + StripTags(rest)
  {
    var s := text + rest;
    if |text| == 0 {
      assert s == rest;
    } else {
      var t := StripTags(rest);
      assert s[0] == text[0] && s[0] != '<';
      assert s[1..] == text[1..] + rest;
      var tail := text[1..];
      StripKeepsPlainHead(s);
      StripPlainPrefix(tail, rest);
      assert StripTags(s[1..]) == tail + t;
      assert [text[0]] + (tail + t) == text + t;
    }
  }

  /** Text with no '<' is left as it is. */
  lemma StripPlainText(s: string)
    requires '<' !in s
    ensures StripTags(s) == s
  {
    StripPlainPrefix(s, "");
    assert s + "" == s;
  }

  /** Text wrapped in two opening and two closing tags is recovered whole. */
  lemma {:induction false} StripWrapped(o1: string, o2: string, text: string, c1: string, c2: string)
    requires IsTag(o1) && IsTag(o2) && IsTag(c1) && IsTag(c2) && '<' !in text
    ensures StripTags(o1 + (o2 + (text + (c1 + c2)))) == text
  {
    StripLeadingTag(c2, "");
    assert c2 + "" == c2;
    StripLeadingTag(c1, c2);
    var body := text + (c1 + c2);
    StripPlainPrefix(text, c1 + c2);
    assert text + "" == text;
    var inner := o2 + body;
    StripLeadingTag(o2, body);
    StripLeadingTag(o1, inner);
  }

  /** Text with no '>' holds no complete tag, so every '<' in it stays. */
  lemma {:induction false} NoCloseKept(s: string)
    requires '>' !in s
    ensures StripTags(s) == s
    decreases |s|
  {
    if |s| > 0 {
      assert '>' !in s[1..] by {
        assert forall x :: x in s[1..] ==> x in s;
      }
      NoCloseKept(s[1..]);
      assert [s[0]] + s[1..] == s;
    }
  }

  /**
    A '<' in a card's text opens a span that the label's own closing
    `</center>` ends: everything from that '<' on disappears from the clean text.
   */
  lemma LessThanSwallowsRest(a: string, b: string)
    requires '<' !in a && '>' !in b
    ensures StripTags(CardLabel(a + "<" + b)) == a
  {
    var close := "<" + b + "</center>";
    assert IsTag(close) by {
      forall k | 1 <= k < |close| - 1
        ensures close[k] != '>'
      {
        if k <= |b| {
          assert close[k] == b[k - 1];
        } else {
          assert close[k] == "</center>"[k - 1 - |b|];
        }
      }
    }
    assert IsTag("<html>") && IsTag("<center>") && IsTag("</html>");
    assert CardLabel(a + "<" + b) == "<html>" + ("<center>" + (a + (close + "</html>")));
    StripWrapped("<html>", "<center>", a, close, "</html>");
  }

  /** A card showing `text` without '<' cleans to `text` lower-cased. */
  lemma CleanCardLabel(text: string)
    requires '<' !in text
    ensures CleanText(CardLabel(text)) == Lower(text)
  {
    assert IsTag("<html>") && IsTag("<center>") && IsTag("</center>") && IsTag("</html>");
    assert CardLabel(text) == "<html>" + ("<center>" + (text + ("</center>" + "</html>")));
    StripWrapped("<html>", "<center>", text, "</center>", "</html>");
  }
}

=== FILE: character_dao.dfy ===
/**
  `CharacterDAO`: create, fetch, update, list and delete over the
  `characters` table. Static methods, one connection per call. Unlike
  `StoryDAO.getStoryById`, the fetch lets an `SQLException` propagate, and
  the update binds a parameter index the statement does not have.
 */
module CharacterDao {
  import opened JavaLang
  import opened Tables
  import opened Database
  import opened CharacterRecord

  /** The Character object the SELECTs build from a row with the five-argument constructor. */
  function ToCharacter(row: Row<CharacterCols>): (c: Character)
    ensures Observe(c) == View(row.key, row.cols.userId, row.cols.name, row.cols.description, row.cols.backstory)
  {
    Make(row.key, row.cols.userId, row.cols.name, row.cols.description, row.cols.backstory)
  }

  /**
    `createCharacter`: inserts one row owned by the session user from the
    name, description and backstory getters, and returns the input with its
    character id set to the generated key. Zero affected rows, or an SQL
    error, throws and leaves the store unchanged.
   */
  function CreateCharacter(st: State, character: Character, effect: InsertEffect): (r: Step<Try<Character>>)
    requires st.session.NonNull?
    ensures r.result.Returned? <==> effect.Inserted?
    ensures !effect.Inserted? ==> r.next == st
    ensures effect.NoRowsAffected? ==> r.result == Threw("Creating character failed, no rows affected.")
    ensures r.next.session == st.session && r.next.db.users == st.db.users
    ensures r.next.db.stories == st.db.stories && r.next.db.traits == st.db.traits
    ensures r.result.Returned? ==>
              && r.result.value == SetCharacterId(character, GetCharacterId(r.result.value))
              && r.next.db.characters.rows == st.db.characters.rows
                   + [Row(GetCharacterId(r.result.value),
                          CharacterCols(SessionId(st), GetName(character), GetDescription(character),
                                        GetBackstory(character)))]
    ensures r.result.Returned? && WellFormed(st.db) ==>
              GetCharacterId(r.result.value) >= FirstKey
              && !HasKey(st.db.characters, GetCharacterId(r.result.value))
    ensures WellFormed(st.db) ==> WellFormed(r.next.db)
  {
    match effect
    case Inserted =>
      var cols := CharacterCols(SessionId(st), GetName(character), GetDescription(character), GetBackstory(character));
      var (characters, key) := Insert(st.db.characters, cols);
      Step(Returned(SetCharacterId(character, key)), st.(db := st.db.(characters := characters)))
    case NoRowsAffected => Step(Threw("Creating character failed, no rows affected."), st)
    case InsertFailed(message) => Step(Threw(message), st)
  }

  /**
    `getCharacterById`: the row with that key, whoever owns it, or null when
    there is none. An SQL error is thrown to the caller.
   */
  function GetCharacterById(st: State, id: int, fault: Fault): (r: Try<Nullable<Character>>)
    ensures r.Threw? <==> fault.SqlError?
    ensures r.Returned? ==> (r.value.NonNull? <==> HasKey(st.db.characters, id))
    ensures forall i :: r.Returned? && r.value.NonNull? && IsFirstWithKey(st.db.characters.rows, id, i) ==>
              r.value.value == ToCharacter(st.db.characters.rows[i])
  {
    if fault.SqlError? then Threw(fault.message)
    else
      match FindFirst(st.db.characters.rows, (row: Row<CharacterCols>) => row.key == id)
      case NotFound => Returned(Null)
      case FoundAt(i) =>
        assert IsFirstWithKey(st.db.characters.rows, id, i);
        Returned(NonNull(ToCharacter(st.db.characters.rows[i])))
  }

  /**
    `updateCharacter`: the statement is meant to set name, description and
    backstory of the row with the character's id
    (`UPDATE characters SET name = ?, description = ?, backstory = ? WHERE character_id = ?`),
    but the id is bound as parameter 5 of a statement with four
    placeholders. JDBC raises an `SQLException` at that bind, before the
    statement runs, so every call throws and no row changes.
   */
  function UpdateCharacter(st: State, character: Character): (r: Step<Try<()>>)
    ensures r.result.Threw? && r.next == st
  {
    Step(Threw("Parameter index out of range (5 > number of parameters, which is 4)."), st)
  }

  /** The rows owned by `userId`. */
  function OwnedRows(rows: seq<Row<CharacterCols>>, userId: int): (r: seq<Row<CharacterCols>>)
    ensures forall x :: x in r <==> x in rows && x.cols.userId == userId
    ensures DistinctKeys(rows) ==> DistinctKeys(r)
  {
    Filter(rows, (row: Row<CharacterCols>) => row.cols.userId == userId)
  }

  /**
    `getAllCharacters`: the rows owned by the session user, with no id
    twice, or null when the query raises.
   */
  function GetAllCharacters(st: State, fault: Fault): (r: Nullable<seq<Character>>)
    requires st.session.NonNull?
    ensures r.Null? <==> fault.SqlError?
    ensures r.NonNull? ==>
              forall c :: c in r.value <==>
                exists row :: row in st.db.characters.rows && row.cols.userId == SessionId(st) && c == ToCharacter(row)
    ensures r.NonNull? && WellFormed(st.db) ==>
              forall i, j :: 0 <= i < j < |r.value| ==> GetCharacterId(r.value[i]) != GetCharacterId(r.value[j])
  {
    if fault.SqlError? then Null
    else
      var owned := OwnedRows(st.db.characters.rows, SessionId(st));
      var characters := seq(|owned|, i requires 0 <= i < |owned| => ToCharacter(owned[i]));
      assert forall row :: row in owned ==> ToCharacter(row) in characters by {
        forall row | row in owned
          ensures ToCharacter(row) in characters
        {
          var i :| 0 <= i < |owned| && owned[i] == row;
          assert characters[i] == ToCharacter(row);
        }
      }
      NonNull(characters)
  }

  /** `deleteCharacter`: removes the rows with that key, and only those; an absent key changes nothing. */
  function DeleteCharacter(st: State, id: int, fault: Fault): (r: Step<Try<()>>)
    ensures fault.SqlError? ==> r == Step(Threw(fault.message), st)
    ensures fault.NoFault? ==> r.result == Returned(())
    ensures fault.NoFault? ==>
              forall x :: x in r.next.db.characters.rows <==> x in st.db.characters.rows && x.key != id
    ensures r.next.session == st.session && r.next.db.users == st.db.users
    ensures r.next.db.stories == st.db.stories && r.next.db.traits == st.db.traits
    ensures !HasKey(st.db.characters, id) ==> r.next == st
    ensures r.next.db.characters.nextKey == st.db.characters.nextKey
    ensures WellFormed(st.db) ==> WellFormed(r.next.db)
  {
    if fault.SqlError? then Step(Threw(fault.message), st)
    else
      var (characters, _) := DeleteWhere(st.db.characters, (row: Row<CharacterCols>) => row.key == id);
      Step(Returned(()), st.(db := st.db.(characters := characters)))
  }

  /** Create, then fetch by the returned id: the name, description and backstory come back under the session owner. */
  lemma CreateThenGet(st: State, character: Character)
    requires WellFormed(st.db) && st.session.NonNull?
    ensures var created := CreateCharacter(st, character, Inserted);
            var id := GetCharacterId(created.result.value);
            var fetched := GetCharacterById(created.next, id, NoFault);
            && fetched == Returned(NonNull(ToCharacter(created.next.db.characters.rows[|st.db.characters.rows|])))
            && Observe(fetched.value.value)
               == View(id, SessionId(st), GetName(character), GetDescription(character), GetBackstory(character))
  {
    var created := CreateCharacter(st, character, Inserted);
    var t := created.next.db.characters;
    var n := |st.db.characters.rows|;
    assert forall j :: 0 <= j < n ==> t.rows[j] == st.db.characters.rows[j];
    assert IsFirstWithKey(t.rows, t.rows[n].key, n);
  }

  /** Delete, then fetch: the fetch returns null (or throws on an SQL error of its own). */
  lemma DeleteThenGetIsNull(st: State, id: int)
    ensures GetCharacterById(DeleteCharacter(st, id, NoFault).next, id, NoFault) == Returned(Null)
  {
    var t := DeleteCharacter(st, id, NoFault).next.db.characters;
    assert forall i :: 0 <= i < |t.rows| ==> t.rows[i] in t.rows && t.rows[i].key != id;
  }
}

=== FILE: character_record.dfy ===
/** The `Character` entity record: five fields, each with a getter and a setter of its own. */
module CharacterRecord {
  import opened JavaLang

  datatype Character = Character(
    characterId: int,
    userId: int,
    name: Nullable<string>,
    description: Nullable<string>,
    backstory: Nullable<string>)

  /** The results of the five getters. */
  datatype View = View(
    id: int,
    userId: int,
    name: Nullable<string>,
    description: Nullable<string>,
    backstory: Nullable<string>)

  function Observe(c: Character): View
  {
    View(GetCharacterId(c), GetUserId(c), GetName(c), GetDescription(c), GetBackstory(c))
  }

  /** `new Character()`: ids 0, strings null. */
  function Default(): (c: Character)
    ensures Observe(c) == View(0, 0, Null, Null, Null)
  {
    Character(0, 0, Null, Null, Null)
  }

  function Make(id: int, userId: int, name: Nullable<string>, description: Nullable<string>,
                backstory: Nullable<string>): (c: Character)
    ensures Observe(c) == View(id, userId, name, description, backstory)
  {
    Character(id, userId, name, description, backstory)
  }

  function GetCharacterId(c: Character): int
  {
    c.characterId
  }

  function GetUserId(c: Character): int
  {
    c.userId
  }

  function GetName(c: Character): Nullable<string>
  {
    c.name
  }

  function GetDescription(c: Character): Nullable<string>
  {
    c.description
  }

  function GetBackstory(c: Character): Nullable<string>
  {
    c.backstory
  }

  function SetCharacterId(c: Character, id: int): (r: Character)
    ensures Observe(r) == Observe(c).(id := id)
  {
    c.(characterId := id)
  }

  function SetUserId(c: Character, userId: int): (r: Character)
    ensures Observe(r) == Observe(c).(userId := userId)
  {
    c.(userId := userId)
  }

  function SetName(c: Character, name: Nullable<string>): (r: Character)
    ensures Observe(r) == Observe(c).(name := name)
  {
    c.(name := name)
  }

  function SetDescription(c: Character, description: Nullable<string>): (r: Character)
    ensures Observe(r) == Observe(c).(description := description)
  {
    c.(description := description)
  }

  function SetBackstory(c: Character, backstory: Nullable<string>): (r: Character)
    ensures Observe(r) == Observe(c).(backstory := backstory)
  {
    c.(backstory := backstory)
  }
}

=== FILE: database.dfy ===
/**
  The abstract store behind the data-access layer: the four tables `users`,
  `story`, `characters` and `traits`, plus the process-wide session
  (`UserDAO.currentUser`). Each DAO method is a transition from one `State`
  to the next. What the environment decides — whether a connection could be
  opened, whether a statement raised an `SQLException`, how many rows an
  INSERT reported — arrives as a parameter of the transition.
 */
module Database {
  import opened JavaLang
  import opened Tables
  import UserRecord

  /** A `users` row: username, email and the stored password digest. */
  datatype UserCols = UserCols(username: string, email: string, password: string)

  /** A `story` row; `created` is the column's DEFAULT now() value. */
  datatype StoryCols = StoryCols(
    userId: int,
    title: Nullable<string>,
    genre: Nullable<string>,
    status: Nullable<string>,
    synopsis: Nullable<string>,
    created: Timestamp)

  /** A `characters` row. */
  datatype CharacterCols = CharacterCols(
    userId: int,
    name: Nullable<string>,
    description: Nullable<string>,
    backstory: Nullable<string>)

  /** A `traits` row. */
  datatype TraitCols = TraitCols(userId: int, name: string)

  datatype Store = Store(
    users: Table<UserCols>,
    stories: Table<StoryCols>,
    characters: Table<CharacterCols>,
    traits: Table<TraitCols>)

  /** The store and the process-wide session: null until a login succeeds. */
  datatype State = State(db: Store, session: Nullable<UserRecord.User>)

  /** The connection a DAO instance opened in its constructor. */
  datatype Connection = Connected | NoConnection

  /** Whether executing a statement raised an `SQLException`. */
  datatype Fault = NoFault | SqlError(message: string)

  /** What executing an INSERT did: one row, an affected count of 0, or an `SQLException`. */
  datatype InsertEffect = Inserted | NoRowsAffected | InsertFailed(message: string)

  /** A transition's result together with the state it leads to. */
  datatype Step<+R> = Step(result: R, next: State)

  predicate WellFormed(db: Store)
  {
    Tables.Valid(db.users) && Tables.Valid(db.stories) && Tables.Valid(db.characters) && Tables.Valid(db.traits)
  }

  /**
    A fresh database: empty tables, and no session. The session is null at
    every process start (`currentUser` is a static field left at its default);
    the tables persist between runs, so empty tables describe only a database
    that has never been written.
   */
  function Initial(): (st: State)
    ensures WellFormed(st.db) && st.session.Null?
    ensures |st.db.users.rows| == 0 && |st.db.stories.rows| == 0
    ensures |st.db.characters.rows| == 0 && |st.db.traits.rows| == 0
  {
    State(Store(NewTable(), NewTable(), NewTable(), NewTable()), Null)
  }

  /** `UserDAO.currentUser.getID()`, defined only when there is a session. */
  function SessionId(st: State): int
    requires st.session.NonNull?
  {
    UserRecord.GetId(st.session.value)
  }
}

=== FILE: homepage.dfy ===
/**
  The card panels of `Homepage`: each panel is a row of slots, the "+" add
  button at slot 0 and one card per story or character after it. A card
  carries its HTML label, the id of the entity it shows and whether it is
  visible. The panel operations are the search filter, inserting a new card
  right after the add button, the initial load and the refresh-or-remove
  step after an edit or a delete. The DAO calls they make go through the
  store model, so every operation also yields the next `State`.
 */
module Homepage {
  import opened JavaLang
  import opened Database
  import opened CardText
  import Tables
  import StoryRecord
  import CharacterRecord
  import StoryDao
  import CharacterDao

  /** One component of a panel: the add button, or a card. */
  datatype Slot = AddButton | Card(caption: string, entityId: int, visible: bool)

  type Panel = seq<Slot>

  /** A panel as `setupScrollPanes` builds it and every operation keeps it: the button first, cards after. */
  predicate IsPanel(p: Panel)
  {
    |p| >= 1 && p[0].AddButton? && forall i :: 1 <= i < |p| ==> p[i].Card?
  }

  /** The two panels and the store and session behind them. */
  datatype Home = Home(app: State, stories: Panel, characters: Panel)

  /** A panel before any card is added. */
  function NewPanel(): (p: Panel)
    ensures IsPanel(p) && |p| == 1
  {
    [AddButton]
  }

  // ---------------------------------------------------------------------------
  // Search
  // ---------------------------------------------------------------------------

  /**
    A card with label `caption` matches the text typed in a search bar. The
    empty query matches every card; for a caption without '<' the match
    ignores letter case on both sides.
   */
  function Matches(caption: string, query: string): (b: bool)
    ensures query == [] ==> b
    ensures '<' !in caption ==> (b <==> Contains(Lower(caption), Lower(query)))
  {
    Contains(CleanText(caption), Lower(query))
  }

  /**
    `searchStories` / `searchCharacters`: from slot 1 on, each card becomes
    visible exactly when its clean text contains the lower-cased query.
    Slot 0 is skipped; labels, ids and order are kept.
   */
  function Search(panel: Panel, query: string): (r: Panel)
    ensures |r| == |panel|
    ensures |panel| > 0 ==> r[0] == panel[0]
    ensures forall i :: 1 <= i < |panel| && panel[i].AddButton? ==> r[i] == panel[i]
    ensures forall i :: 1 <= i < |panel| && panel[i].Card? ==>
              && r[i].Card?
              && r[i].caption == panel[i].caption
              && r[i].entityId == panel[i].entityId
              && (r[i].visible <==> exists k :: OccursAt(CleanText(panel[i].caption), Lower(query), k))
  {
    seq(|panel|, i requires 0 <= i < |panel| =>
      if 1 <= i && panel[i].Card? then panel[i].(visible := Matches(panel[i].caption, query)) else panel[i])
  }

  /** Searching again for the same text changes nothing. */
  lemma SearchIdempotent(panel: Panel, query: string)
    ensures Search(Search(panel, query), query) == Search(panel, query)
  {
  }

  /** Searching keeps a panel a panel. */
  lemma SearchKeepsPanel(panel: Panel, query: string)
    requires IsPanel(panel)
    ensures IsPanel(Search(panel, query))
  {
  }

  /** An empty search bar shows every card. */
  lemma EmptySearchShowsAll(panel: Panel)
    ensures forall i :: 1 <= i < |panel| && panel[i].Card? ==> Search(panel, "")[i].visible
  {
    forall i | 1 <= i < |panel| && panel[i].Card?
      ensures Search(panel, "")[i].visible
    {
      EmptyIsContained(CleanText(panel[i].caption));
    }
  }

  // ---------------------------------------------------------------------------
  // Cards
  // ---------------------------------------------------------------------------

  /**
    `createCard`: the label wraps the text in `<html><center>`; a null text
    shows as "null". Visibility is first set from the search bar and then
    unconditionally set to true, so a new card is always visible.
   */
  function CreateCard(text: Nullable<string>, entityId: int): (c: Slot)
    ensures c.Card? && c.visible && c.entityId == entityId
  {
    Card(CardLabel(Render(text)), entityId, true)
  }

  /** A new card's label cleans back to its text lower-cased, or to "null" for a null text. */
  lemma CreateCardCleans(text: Nullable<string>, entityId: int)
    ensures text.NonNull? && '<' !in text.value ==> CleanText(CreateCard(text, entityId).caption) == Lower(text.value)
    ensures text.Null? ==> CleanText(CreateCard(text, entityId).caption) == "null"
  {
    if '<' !in Render(text) {
      CleanCardLabel(Render(text));
    }
    assert Lower("null") == "null";
  }

  /**
    A card is visible as soon as it is created even when the search bar
    holds text it does not match; only the next search hides it.
   */
  lemma NewCardIgnoresSearch(text: string, entityId: int, query: string)
    requires '<' !in text && !Contains(Lower(text), Lower(query))
    ensures var c := CreateCard(NonNull(text), entityId);
            c.visible && !Matches(c.caption, query) && !Search([AddButton, c], query)[1].visible
  {
    CreateCardCleans(NonNull(text), entityId);
  }

  /**
    A title holding a '<' loses everything from it on in its clean text, so
    a search for the lost part hides the card: a story titled "x < y" cleans
    to "x " and a search for "y" hides it.
   */
  lemma LessThanHidesTail(a: string, b: string, query: string, entityId: int)
    requires '<' !in a && '>' !in b && !Contains(Lower(a), Lower(query))
    ensures var c := CreateCard(NonNull(a + "<" + b), entityId);
            CleanText(c.caption) == Lower(a) && !Matches(c.caption, query)
  {
    LessThanSwallowsRest(a, b);
  }

  /** The card for a story: its title and id (`s -> createCard(s.getTitle(), ..., s.getId(), true)`). */
  function StoryCard(s: StoryRecord.Story): (c: Slot)
    ensures c.Card? && c.entityId == StoryRecord.GetId(s)
  {
    CreateCard(StoryRecord.GetTitle(s), StoryRecord.GetId(s))
  }

  /** The card for a character: its name and character id. */
  function CharacterCard(ch: CharacterRecord.Character): (c: Slot)
    ensures c.Card? && c.entityId == CharacterRecord.GetCharacterId(ch)
  {
    CreateCard(CharacterRecord.GetName(ch), CharacterRecord.GetCharacterId(ch))
  }

  /** `panel.add(card, 1)`: the card goes directly after the add button, the rest shift right. */
  function InsertAfterButton(panel: Panel, card: Slot): (r: Panel)
    requires |panel| >= 1
    ensures |r| == |panel| + 1 && r[0] == panel[0] && r[1] == card
    ensures forall i :: 2 <= i < |r| ==> r[i] == panel[i - 1]
    ensures card.Card? && IsPanel(panel) ==> IsPanel(r)
  {
    panel[..1] + [card] + panel[1..]
  }

  /** Removing the card just inserted gives back the panel. */
  lemma InsertThenRemove(panel: Panel, card: Slot)
    requires |panel| >= 1
    ensures var r := InsertAfterButton(panel, card); r[..1] + r[2..] == panel
  {
    var r := InsertAfterButton(panel, card);
    assert r[2..] == panel[1..];
  }

  // ---------------------------------------------------------------------------
  // The add buttons
  // ---------------------------------------------------------------------------

  /** The add button's action runs only for a dialog answer that is non-null and not blank once trimmed. */
  function AddFires(input: Nullable<string>): (b: bool)
    ensures b ==> input.NonNull? && |input.value| > 0
    ensures input.NonNull? && |input.value| > 0 && !IsTrimmed(input.value[0]) ==> b
  {
    input.NonNull? && Trim(input.value) != []
  }

  /** Blank means every character is at or below U+0020: a name of spaces and tabs adds nothing. */
  lemma AddFiresIffSomeVisibleChar(input: Nullable<string>)
    ensures AddFires(input) <==>
              input.NonNull? && exists i :: 0 <= i < |input.value| && !IsTrimmed(input.value[i])
  {
    if input.NonNull? {
      TrimEmptyIffAllTrimmed(input.value);
    }
  }

  /** The story the add action hands to `createStory`: title set, status set to "Draft". */
  function DraftStory(name: string): (s: StoryRecord.Story)
    ensures StoryRecord.GetTitle(s) == NonNull(name) && s.status == NonNull("Draft")
  {
    StoryRecord.SetStatus(StoryRecord.SetTitle(StoryRecord.Default(), NonNull(name)), NonNull("Draft"))
  }

  /**
    `insertStoryCard`: creates the story and, when that succeeds, puts its
    card right after the add button; when `createStory` throws, the error
    is shown and nothing changes. The "Draft" status never reaches the
    store: `createStory` binds `getStatus()`, which returns the title.
   */
  function InsertStoryCard(h: Home, name: string, effect: InsertEffect, now: Timestamp): (r: Home)
    requires h.app.session.NonNull? && |h.stories| >= 1
    ensures !effect.Inserted? ==> r == h
    ensures r.characters == h.characters && r.app.session == h.app.session
    ensures r.app.db.users == h.app.db.users && r.app.db.characters == h.app.db.characters
    ensures r.app.db.traits == h.app.db.traits
    ensures effect.Inserted? ==>
              var n := |h.app.db.stories.rows|;
              && |r.app.db.stories.rows| == n + 1
              && r.app.db.stories.rows[..n] == h.app.db.stories.rows
              && r.app.db.stories.rows[n].cols.userId == SessionId(h.app)
              && r.app.db.stories.rows[n].cols.title == NonNull(name)
              && r.app.db.stories.rows[n].cols.status == NonNull(name)
              && r.stories == InsertAfterButton(h.stories, Card(CardLabel(name), r.app.db.stories.rows[n].key, true))
    ensures WellFormed(h.app.db) ==> WellFormed(r.app.db)
  {
    var step := StoryDao.CreateStory(h.app, DraftStory(name), effect, now);
    match step.result
    case Threw(_) => h
    case Returned(created) =>
      Home(step.next, InsertAfterButton(h.stories, StoryCard(created)), h.characters)
  }

  /**
    `insertCharacterCard`: a card is inserted after the add button whether
    or not `createCharacter` succeeds. On failure the card is built from a
    default `Character`, so it reads "null" and carries id 0.
   */
  function InsertCharacterCard(h: Home, name: string, effect: InsertEffect): (r: Home)
    requires h.app.session.NonNull? && |h.characters| >= 1
    ensures r.stories == h.stories && r.app.session == h.app.session
    ensures r.app.db.users == h.app.db.users && r.app.db.stories == h.app.db.stories
    ensures r.app.db.traits == h.app.db.traits
    ensures !effect.Inserted? ==>
              r == h.(characters := InsertAfterButton(h.characters, Card(CardLabel("null"), 0, true)))
    ensures effect.Inserted? ==>
              var n := |h.app.db.characters.rows|;
              && |r.app.db.characters.rows| == n + 1
              && r.app.db.characters.rows[..n] == h.app.db.characters.rows
              && r.app.db.characters.rows[n].cols.userId == SessionId(h.app)
              && r.app.db.characters.rows[n].cols.name == NonNull(name)
              && r.characters
                 == InsertAfterButton(h.characters, Card(CardLabel(name), r.app.db.characters.rows[n].key, true))
    ensures WellFormed(h.app.db) ==> WellFormed(r.app.db)
  {
    var character := CharacterRecord.SetName(CharacterRecord.Default(), NonNull(name));
    var step := CharacterDao.CreateCharacter(h.app, character, effect);
    var created := if step.result.Returned? then step.result.value else CharacterRecord.Default();
    Home(step.next, h.stories, InsertAfterButton(h.characters, CharacterCard(created)))
  }

  /** The story add button: ask for a name, then `insertStoryCard` when the answer is not blank. */
  function AddStory(h: Home, input: Nullable<string>, effect: InsertEffect, now: Timestamp): (r: Home)
    requires input.NonNull? && Trim(input.value) != [] ==> h.app.session.NonNull? && |h.stories| >= 1
    ensures !AddFires(input) || !effect.Inserted? ==> r == h
    ensures AddFires(input) && effect.Inserted? ==> |r.stories| == |h.stories| + 1 && r.stories[1].Card?
    ensures AddFires(input) && effect.Inserted? ==>
              var n := |h.app.db.stories.rows|;
              && |r.app.db.stories.rows| == n + 1
              && r.app.db.stories.rows[..n] == h.app.db.stories.rows
              && r.app.db.stories.rows[n].cols.userId == SessionId(h.app)
              && r.app.db.stories.rows[n].cols.title == NonNull(input.value)
              && r.stories
                 == InsertAfterButton(h.stories, Card(CardLabel(input.value), r.app.db.stories.rows[n].key, true))
    ensures r.characters == h.characters && r.app.session == h.app.session
    ensures r.app.db.users == h.app.db.users && r.app.db.characters == h.app.db.characters
    ensures r.app.db.traits == h.app.db.traits
  {
    if AddFires(input) then InsertStoryCard(h, input.value, effect, now) else h
  }

  /** The character add button: ask for a name, then `insertCharacterCard` when the answer is not blank. */
  function AddCharacter(h: Home, input: Nullable<string>, effect: InsertEffect): (r: Home)
    requires input.NonNull? && Trim(input.value) != [] ==> h.app.session.NonNull? && |h.characters| >= 1
    ensures !AddFires(input) ==> r == h
    ensures AddFires(input) ==> |r.characters| == |h.characters| + 1 && r.characters[1].Card?
    ensures AddFires(input) && !effect.Inserted? ==>
              r == h.(characters := InsertAfterButton(h.characters, Card(CardLabel("null"), 0, true)))
    ensures AddFires(input) && effect.Inserted? ==>
              var n := |h.app.db.characters.rows|;
              && |r.app.db.characters.rows| == n + 1
              && r.app.db.characters.rows[..n] == h.app.db.characters.rows
              && r.app.db.characters.rows[n].cols.userId == SessionId(h.app)
              && r.app.db.characters.rows[n].cols.name == NonNull(input.value)
              && r.characters
                 == InsertAfterButton(h.characters, Card(CardLabel(input.value), r.app.db.characters.rows[n].key, true))
    ensures r.stories == h.stories && r.app.session == h.app.session
    ensures r.app.db.users == h.app.db.users && r.app.db.stories == h.app.db.stories
    ensures r.app.db.traits == h.app.db.traits
  {
    if AddFires(input) then InsertCharacterCard(h, input.value, effect) else h
  }

  // ---------------------------------------------------------------------------
  // Initial load
  // ---------------------------------------------------------------------------

  /**
    What `n` insertions at slot 1 leave behind: the first `n` cards in
    reverse after the button, then the panel's own cards.
   */
  ghost predicate PrependedFirst(panel: Panel, cards: seq<Slot>, n: nat, r: Panel)
    requires |panel| >= 1 && n <= |cards|
  {
    && |r| == |panel| + n && r[0] == panel[0]
    && (forall k :: 1 <= k <= n ==> r[k] == cards[n - k])
    && (forall i :: n < i < |r| ==> r[i] == panel[i - n])
  }

  /** One more insertion at slot 1 extends the reversed prefix by the next card. */
  lemma PrependOne(panel: Panel, cards: seq<Slot>, n: nat, r: Panel)
    requires |panel| >= 1 && n < |cards| && PrependedFirst(panel, cards, n, r)
    ensures PrependedFirst(panel, cards, n + 1, InsertAfterButton(r, cards[n]))
  {
    var next := InsertAfterButton(r, cards[n]);
    forall k | 2 <= k <= n + 1
      ensures next[k] == cards[n + 1 - k]
    {
      assert next[k] == r[k - 1];
    }
    forall i | n + 1 < i < |next|
      ensures next[i] == panel[i - (n + 1)]
    {
      assert next[i] == r[i - 1];
    }
  }

  /** Every slot is a card. */
  predicate AllCards(cards: seq<Slot>)
  {
    forall k :: 0 <= k < |cards| ==> cards[k].Card?
  }

  /** Inserting each card in turn at slot 1: the cards end up after the button in reverse order. */
  method PrependAll(panel: Panel, cards: seq<Slot>) returns (r: Panel)
    requires |panel| >= 1
    ensures |r| == |panel| + |cards| && r[0] == panel[0]
    ensures forall k :: 1 <= k <= |cards| ==> r[k] == cards[|cards| - k]
    ensures forall i :: |cards| < i < |r| ==> r[i] == panel[i - |cards|]
    ensures IsPanel(panel) && AllCards(cards) ==> IsPanel(r)
  {
    r := panel;
    for n := 0 to |cards|
      invariant PrependedFirst(panel, cards, n, r)
    {
      PrependOne(panel, cards, n, r);
      r := InsertAfterButton(r, cards[n]);
    }
  }

  /** One card per story, in list order. */
  function StoryCards(stories: seq<StoryRecord.Story>): (r: seq<Slot>)
    ensures |r| == |stories| && AllCards(r)
    ensures forall i :: 0 <= i < |stories| ==> r[i] == StoryCard(stories[i])
  {
    seq(|stories|, i requires 0 <= i < |stories| => StoryCard(stories[i]))
  }

  /** One card per character, in list order. */
  function CharacterCards(characters: seq<CharacterRecord.Character>): (r: seq<Slot>)
    ensures |r| == |characters| && AllCards(r)
    ensures forall i :: 0 <= i < |characters| ==> r[i] == CharacterCard(characters[i])
  {
    seq(|characters|, i requires 0 <= i < |characters| => CharacterCard(characters[i]))
  }

  /** Slots 1 to `|cards|` of `panel` hold `cards` last first. */
  predicate ShowsReversed(panel: Panel, cards: seq<Slot>)
  {
    && |cards| < |panel|
    && forall k :: 1 <= k <= |cards| ==> panel[k] == cards[|cards| - k]
  }

  /**
    `r` is `panel` after inserting each of `cards` at slot 1 in turn: the
    same slot 0, the cards last first, then the old cards in their order.
   */
  predicate Prepended(r: Panel, panel: Panel, cards: seq<Slot>)
  {
    && |panel| >= 1 && |r| == |panel| + |cards| && r[0] == panel[0]
    && ShowsReversed(r, cards)
    && forall k :: 1 <= k < |panel| ==> r[|cards| + k] == panel[k]
  }

  /** The story loop of `loadInitialData`: each story's card inserted at slot 1, in list order. */
  method LoadStoryCards(panel: Panel, stories: seq<StoryRecord.Story>) returns (r: Panel)
    requires |panel| >= 1
    ensures Prepended(r, panel, StoryCards(stories))
    ensures IsPanel(panel) ==> IsPanel(r)
  {
    r := PrependAll(panel, StoryCards(stories));
  }

  /** The character loop of `loadInitialData`: each character's card inserted at slot 1, in list order. */
  method LoadCharacterCards(panel: Panel, characters: seq<CharacterRecord.Character>) returns (r: Panel)
    requires |panel| >= 1
    ensures Prepended(r, panel, CharacterCards(characters))
    ensures IsPanel(panel) ==> IsPanel(r)
  {
    r := PrependAll(panel, CharacterCards(characters));
  }

  /**
    `loadInitialData`: the session user's stories, then characters, each
    card inserted at slot 1 in list order — so the panels show them in
    reverse. A listing that fails comes back null, and iterating over it
    throws a NullPointerException, which nothing catches.
   */
  method LoadInitialData(h: Home, storyFault: Fault, characterFault: Fault) returns (r: Try<Home>)
    requires h.app.session.NonNull? && |h.stories| >= 1 && |h.characters| >= 1
    ensures r.Threw? <==> storyFault.SqlError? || characterFault.SqlError?
    ensures r.Threw? ==> r.message == "NullPointerException"
    ensures r.Returned? ==>
              var stories := StoryDao.GetAllStories(h.app, storyFault).value;
              var characters := CharacterDao.GetAllCharacters(h.app, characterFault).value;
              && r.value.app == h.app
              && Prepended(r.value.stories, h.stories, StoryCards(stories))
              && Prepended(r.value.characters, h.characters, CharacterCards(characters))
    ensures r.Returned? && IsPanel(h.stories) && IsPanel(h.characters) ==>
              IsPanel(r.value.stories) && IsPanel(r.value.characters)
  {
    var stories := StoryDao.GetAllStories(h.app, storyFault);
    if stories.Null? {
      return Threw("NullPointerException");
    }
    var storyPanel := LoadStoryCards(h.stories, stories.value);
    var characters := CharacterDao.GetAllCharacters(h.app, characterFault);
    if characters.Null? {
      return Threw("NullPointerException");
    }
    var characterPanel := LoadCharacterCards(h.characters, characters.value);
    r := Returned(Home(h.app, storyPanel, characterPanel));
  }

  // ---------------------------------------------------------------------------
  // Refresh after an edit or a delete
  // ---------------------------------------------------------------------------

  /** Slot `i` is the first card, scanning from slot 0, whose stored id is `id`. */
  ghost predicate IsFirstCard(panel: Panel, id: int, i: int)
  {
    && 0 <= i < |panel|
    && panel[i].Card? && panel[i].entityId == id
    && forall j :: 0 <= j < i ==> !(panel[j].Card? && panel[j].entityId == id)
  }

  ghost predicate HasCard(panel: Panel, id: int)
  {
    exists i :: 0 <= i < |panel| && panel[i].Card? && panel[i].entityId == id
  }

  /** The first slot holding a card for `id`. */
  function FindCard(panel: Panel, id: int): (r: Tables.Found)
    ensures r.FoundAt? ==> IsFirstCard(panel, id, r.index)
    ensures r.NotFound? <==> !HasCard(panel, id)
  {
    if |panel| == 0 then Tables.NotFound
    else if panel[0].Card? && panel[0].entityId == id then Tables.FoundAt(0)
    else
      match FindCard(panel[1..], id)
      case NotFound =>
        assert forall j :: 1 <= j < |panel| ==> panel[j] == panel[1..][j - 1];
        Tables.NotFound
      case FoundAt(i) =>
        assert forall j :: 1 <= j < |panel| ==> panel[j] == panel[1..][j - 1];
        Tables.FoundAt(i + 1)
  }

  /**
    `refreshOrRemoveCard`: the first card for `entityId` is removed when the
    entity is null and replaced in place otherwise; with no such card, a
    non-null entity gets a new card after the add button and a null one
    changes nothing.
   */
  function RefreshOrRemove<T>(panel: Panel, entity: Nullable<T>, entityId: int, cardOf: T -> Slot): (r: Panel)
    requires |panel| >= 1
    ensures forall i :: IsFirstCard(panel, entityId, i) && entity.Null? ==> r == panel[..i] + panel[i + 1..]
    ensures forall i :: IsFirstCard(panel, entityId, i) && entity.NonNull? ==> r == panel[i := cardOf(entity.value)]
    ensures !HasCard(panel, entityId) && entity.Null? ==> r == panel
    ensures !HasCard(panel, entityId) && entity.NonNull? ==>
              |r| == |panel| + 1 && r[0] == panel[0] && r[1] == cardOf(entity.value) && r[2..] == panel[1..]
    ensures IsPanel(panel) && (entity.NonNull? ==> cardOf(entity.value).Card?) ==> IsPanel(r)
  {
    match FindCard(panel, entityId)
    case FoundAt(i) =>
      if entity.Null? then
        panel[..i] + panel[i + 1..]
      else panel[i := cardOf(entity.value)]
    case NotFound =>
      if entity.NonNull? then
        var r := InsertAfterButton(panel, cardOf(entity.value));
        assert r[2..] == panel[1..];
        r
      else panel
  }

  /**
    `refreshCardDisplay`: re-reads the entity and refreshes its card. For a
    story, `getStoryById` turns an SQL error into null, so the card is
    removed; for a character the error propagates, is caught here, and the
    panel stays as it was.
   */
  function RefreshCardDisplay(h: Home, entityId: int, isStory: bool, fault: Fault): (r: Home)
    requires |h.stories| >= 1 && |h.characters| >= 1
    ensures r.app == h.app
    ensures isStory ==> r.characters == h.characters
    ensures !isStory ==> r.stories == h.stories
    ensures !isStory && fault.SqlError? ==> r == h
    ensures isStory && fault.SqlError? ==> r.stories == RefreshOrRemove(h.stories, Null, entityId, StoryCard)
  {
    if isStory then
      var story := StoryDao.GetStoryById(h.app, entityId, fault);
      h.(stories := RefreshOrRemove(h.stories, story, entityId, StoryCard))
    else
      match CharacterDao.GetCharacterById(h.app, entityId, fault)
      case Threw(_) => h
      case Returned(character) => h.(characters := RefreshOrRemove(h.characters, character, entityId, CharacterCard))
  }

  /** Delete a story, then refresh: its first card leaves the panel, the rest keep their order. */
  lemma DeleteStoryThenRefresh(h: Home, id: int, i: int, fault: Fault)
    requires |h.stories| >= 1 && |h.characters| >= 1 && IsFirstCard(h.stories, id, i)
    ensures var after := h.(app := StoryDao.DeleteStory(h.app, id, NoFault).next);
            RefreshCardDisplay(after, id, true, fault).stories == h.stories[..i] + h.stories[i + 1..]
  {
    StoryDao.DeleteThenGetIsNull(h.app, id, fault);
  }

  /** Delete a character, then refresh: its first card leaves the panel. */
  lemma DeleteCharacterThenRefresh(h: Home, id: int, i: int)
    requires |h.stories| >= 1 && |h.characters| >= 1 && IsFirstCard(h.characters, id, i)
    ensures var after := h.(app := CharacterDao.DeleteCharacter(h.app, id, NoFault).next);
            RefreshCardDisplay(after, id, false, NoFault).characters == h.characters[..i] + h.characters[i + 1..]
  {
    CharacterDao.DeleteThenGetIsNull(h.app, id);
  }

  /**
    Update a story, then refresh: its card is replaced in place by one
    showing the new title, still visible and still tagged with the id.
   */
  lemma UpdateStoryThenRefresh(h: Home, story: StoryRecord.Story, i: int)
    requires WellFormed(h.app.db) && Tables.HasKey(h.app.db.stories, StoryRecord.GetId(story))
    requires |h.stories| >= 1 && |h.characters| >= 1 && IsFirstCard(h.stories, StoryRecord.GetId(story), i)
    ensures var id := StoryRecord.GetId(story);
            var after := h.(app := StoryDao.UpdateStory(h.app, story, NoFault).next);
            RefreshCardDisplay(after, id, true, NoFault).stories
            == h.stories[i := CreateCard(StoryRecord.GetTitle(story), id)]
  {
    var id := StoryRecord.GetId(story);
    var next := StoryDao.UpdateStory(h.app, story, NoFault).next;
    StoryDao.UpdateThenGet(h.app, story);
    var j :| 0 <= j < |h.app.db.stories.rows| && h.app.db.stories.rows[j].key == id;
    StoryDao.FirstWithKeyIsUnique(next.db.stories, j);
  }
}

=== FILE: java_lang.dfy ===
/**
  The few facts about the Java language and `java.lang.String` that the
  application relies on: references that may be null, calls that may throw,
  string conversion of null, and the String methods the GUI calls
  (`toLowerCase`, `trim`, `isEmpty`, `contains`).
 */
module JavaLang {

  /** A Java reference that may be null. */
  datatype Nullable<+T> = Null | NonNull(value: T)

  /** The outcome of a call that may throw: the returned value, or the thrown exception's message. */
  datatype Try<+T> = Returned(value: T) | Threw(message: string)

  /** A `java.sql.Timestamp`, abstracted to an opaque instant. */
  type Timestamp = int

  /** A `java.util.Optional`: the User constructor takes three of them. */
  datatype Optional<+T> = Empty | Of(value: T)

  /** `Optional.orElse`. */
  function OrElse<T>(o: Optional<T>, other: T): T
  {
    match o
    case Empty => other
    case Of(v) => v
  }

  /** What `"..." + s` appends for a String reference `s`: a null reference renders as "null". */
  function Render(s: Nullable<string>): string
  {
    match s
    case Null => "null"
    case NonNull(v) => v
  }

  predicate IsUpper(c: char)
  {
    'A' <= c <= 'Z'
  }

  /** Lower-casing of one character, restricted to ASCII. */
  function LowerChar(c: char): (r: char)
    ensures !IsUpper(r)
    ensures !IsUpper(c) ==> r == c
    ensures IsUpper(c) ==> r as int - c as int == 'a' as int - 'A' as int
  {
    if IsUpper(c) then (c as int - 'A' as int + 'a' as int) as char else c
  }

  /** `String.toLowerCase`, restricted to ASCII letters. */
  function Lower(s: string): (r: string)
    ensures |r| == |s|
    ensures forall i :: 0 <= i < |r| ==> !IsUpper(r[i])
    ensures forall i :: 0 <= i < |s| && !IsUpper(s[i]) ==> r[i] == s[i]
    ensures forall i :: 0 <= i < |s| ==> r[i] == LowerChar(s[i])
  {
    seq(|s|, i requires 0 <= i < |s| => LowerChar(s[i]))
  }

  /** Lower-casing text that is already lower-cased changes nothing. */
  lemma LowerIdempotent(s: string)
    ensures Lower(Lower(s)) == Lower(s)
  {
  }

  /** Whitespace in the sense of `String.trim`: every char at or below U+0020. */
  predicate IsTrimmed(c: char)
  {
    c <= ' '
  }

  /** Drops the leading trimmable characters. */
  function TrimStart(s: string): (r: string)
    ensures |r| <= |s| && r == s[|s| - |r|..]
    ensures forall i :: 0 <= i < |s| - |r| ==> IsTrimmed(s[i])
    ensures |r| > 0 ==> !IsTrimmed(r[0])
  {
    if |s| > 0 && IsTrimmed(s[0]) then TrimStart(s[1..]) else s
  }

  /** Drops the trailing trimmable characters. */
  function TrimEnd(s: string): (r: string)
    ensures |r| <= |s| && r == s[..|r|]
    ensures forall i :: |r| <= i < |s| ==> IsTrimmed(s[i])
    ensures |r| > 0 ==> !IsTrimmed(r[|r| - 1])
  {
    if |s| > 0 && IsTrimmed(s[|s| - 1]) then TrimEnd(s[..|s| - 1]) else s
  }

  /** `String.trim`: removes leading and trailing characters at or below U+0020. */
  function Trim(s: string): string
  {
    TrimEnd(TrimStart(s))
  }

  /** `s.trim().isEmpty()` holds exactly when every character of `s` is trimmable. */
  lemma {:induction false} TrimEmptyIffAllTrimmed(s: string)
    ensures Trim(s) == [] <==> forall i :: 0 <= i < |s| ==> IsTrimmed(s[i])
  {
    var t := TrimStart(s);
    if Trim(s) != [] {
      assert t[0] == s[|s| - |t|];
    }
  }

  /** `needle` occurs in `hay` starting at index `i`. */
  ghost predicate OccursAt(hay: string, needle: string, i: int)
  {
    0 <= i && i + |needle| <= |hay| && hay[i..i + |needle|] == needle
  }

  /** `String.contains`: true exactly when `needle` occurs somewhere in `hay`. */
  function Contains(hay: string, needle: string): (r: bool)
    ensures r <==> exists i :: OccursAt(hay, needle, i)
    decreases |hay|
  {
    if |needle| > |hay| then
      assert forall i :: !OccursAt(hay, needle, i);
      false
    else if hay[..|needle|] == needle then
      assert OccursAt(hay, needle, 0);
      true
    else
      var rest := Contains(hay[1..], needle);
      assert forall i :: OccursAt(hay[1..], needle, i) <==> OccursAt(hay, needle, i + 1) by {
        forall i | 0 <= i && i + |needle| <= |hay| - 1
          ensures OccursAt(hay[1..], needle, i) <==> OccursAt(hay, needle, i + 1)
        {
          assert hay[1..][i..i + |needle|] == hay[i + 1..i + 1 + |needle|];
        }
      }
      assert !OccursAt(hay, needle, 0);
      assert (exists i :: OccursAt(hay, needle, i)) ==> exists i :: OccursAt(hay[1..], needle, i) by {
        if exists i :: OccursAt(hay, needle, i) {
          var i :| OccursAt(hay, needle, i);
          assert OccursAt(hay[1..], needle, i - 1);
        }
      }
      rest
  }

  lemma EmptyIsContained(hay: string)
    ensures Contains(hay, "")
  {
    assert OccursAt(hay, "", 0);
  }
}

=== FILE: passwords.dfy ===
/**
  `Passwords.hasher`: SHA-256 of the password, then one `String.format` call
  per digest byte. The pattern passed to `String.format` is "02x" — it has no
  '%' conversion, so each call returns the three characters "02x" and ignores
  the byte. The digest itself is left uninterpreted: it is a parameter `sha`
  that returns the 32 bytes SHA-256 produces (section 6.2 of FIPS 180-4).
 */
module Passwords {
  import JavaLang

  /** A Java `byte`: signed, eight bits. */
  newtype JByte = x: int | -128 <= x < 128

  /** Length in bytes of a SHA-256 digest. */
  const DigestLength: nat := 32

  type Digest = s: seq<JByte> | |s| == DigestLength witness seq(DigestLength, _ => 0)

  /** `MessageDigest.getInstance("SHA-256").digest(password.getBytes())`, uninterpreted. */
  type Sha256 = string -> Digest

  /** The pattern the encoding loop formats every byte with (it lacks the '%'). */
  const BytePattern: string := "02x"

  /** The conversion the documentation describes: the byte as two lower-case hex digits. */
  const HexDirective: string := "%02x"

  predicate IsLowerHexDigit(c: char)
  {
    '0' <= c <= '9' || 'a' <= c <= 'f'
  }

  /** The digit a lower-case hex character stands for. */
  function HexValue(c: char): (d: int)
    requires IsLowerHexDigit(c)
    ensures 0 <= d < 16
  {
    if c <= '9' then c as int - '0' as int else c as int - 'a' as int + 10
  }

  /** The lower-case hex character for a digit below 16. */
  function HexDigit(d: int): (c: char)
    requires 0 <= d < 16
    ensures IsLowerHexDigit(c) && HexValue(c) == d
  {
    if d < 10 then ('0' as int + d) as char else ('a' as int + d - 10) as char
  }

  /**
    `%02x` applied to a `Byte`: a negative byte is printed as its unsigned
    value (the byte plus 256), in two lower-case hex digits.
   */
  function HexByte(b: JByte): (r: string)
    ensures |r| == 2 && IsLowerHexDigit(r[0]) && IsLowerHexDigit(r[1])
    ensures HexValue(r[0]) * 16 + HexValue(r[1]) == b as int % 256
  {
    var u := if b < 0 then b as int + 256 else b as int;
    [HexDigit(u / 16), HexDigit(u % 16)]
  }

  /** Puts `t` in front of a formatted text; an exception passes through. */
  function Prefix(t: string, r: JavaLang.Try<string>): JavaLang.Try<string>
  {
    match r
    case Returned(v) => JavaLang.Returned(t + v)
    case Threw(_) => r
  }

  /**
    `String.format(pattern, b)` with one argument: characters other than '%'
    are copied, "%%" gives '%', and "%02x" gives the byte in hex; a second
    "%02x" finds no argument left and throws. `argUsed` says whether the
    argument was already consumed.
   */
  function FormatFrom(pattern: string, b: JByte, argUsed: bool): (r: JavaLang.Try<string>)
    ensures r.Threw? ==> '%' in pattern
    decreases |pattern|
  {
    if |pattern| == 0 then JavaLang.Returned("")
    else if pattern[0] != '%' then
      var rest := FormatFrom(pattern[1..], b, argUsed);
      assert rest.Threw? ==> '%' in pattern by {
        if rest.Threw? { assert forall x :: x in pattern[1..] ==> x in pattern; }
      }
      Prefix([pattern[0]], rest)
    else if |pattern| >= 2 && pattern[1] == '%' then
      Prefix("%", FormatFrom(pattern[2..], b, argUsed))
    else if |pattern| >= 4 && pattern[..4] == HexDirective then
      if argUsed then JavaLang.Threw("MissingFormatArgumentException")
      else Prefix(HexByte(b), FormatFrom(pattern[4..], b, true))
    else
      JavaLang.Threw("UnknownFormatConversionException")
  }

  /** `String.format(pattern, b)`. */
  function Format(pattern: string, b: JByte): JavaLang.Try<string>
  {
    FormatFrom(pattern, b, false)
  }

  /** A pattern without '%' holds no conversion, so it is returned unchanged and the byte is ignored. */
  lemma {:induction false} FormatNoDirective(p: string, b: JByte, argUsed: bool)
    requires '%' !in p
    ensures FormatFrom(p, b, argUsed) == JavaLang.Returned(p)
    decreases |p|
  {
    if |p| > 0 {
      assert '%' !in p[1..] by {
        assert forall x :: x in p[1..] ==> x in p;
      }
      FormatNoDirective(p[1..], b, argUsed);
      assert [p[0]] + p[1..] == p;
    }
  }

  /** The documented pattern "%02x" turns a byte into exactly its two hex digits. */
  lemma FormatHexByte(b: JByte)
    ensures Format(HexDirective, b) == JavaLang.Returned(HexByte(b))
  {
    var p := HexDirective;
    assert |p| >= 4 && p[0] == '%' && p[1] != '%' && p[..4] == HexDirective;
    assert p[4..] == "";
    assert HexByte(b) + "" == HexByte(b);
  }

  /** `String.format("02x", b)`: the call the loop makes, which yields the pattern whatever the byte. */
  function FormatByte(b: JByte): (r: string)
    ensures r == BytePattern
  {
    FormatNoDirective(BytePattern, b, false);
    Format(BytePattern, b).value
  }

  /** The text the loop builds: one formatted chunk per digest byte, in order. */
  function Encode(hash: seq<JByte>): (r: string)
    ensures |r| == |BytePattern| * |hash|
    ensures forall i :: 0 <= i < |r| ==> r[i] == BytePattern[i % |BytePattern|]
  {
    if |hash| == 0 then ""
    else Encode(hash[..|hash| - 1]) + FormatByte(hash[|hash| - 1])
  }

  /** The `for (byte b : hash) result.append(...)` loop over a StringBuilder. */
  method EncodeLoop(hash: seq<JByte>) returns (result: string)
    ensures result == Encode(hash)
  {
    result := "";
    var i := 0;
    while i < |hash|
      invariant 0 <= i <= |hash|
      invariant result == Encode(hash[..i])
    {
      assert hash[..i + 1][..i] == hash[..i];
      result := result + FormatByte(hash[i]);
      i := i + 1;
    }
    assert hash[..i] == hash;
  }

  /** `Passwords.hasher`: 96 characters, the pattern "02x" repeated once per digest byte. */
  function Hasher(sha: Sha256, password: string): (r: string)
    ensures |r| == |BytePattern| * DigestLength == 96
    ensures forall i :: 0 <= i < |r| ==> r[i] == BytePattern[i % |BytePattern|]
  {
    Encode(sha(password))
  }

  /** Two digests of the same length encode to the same text: the bytes never reach the output. */
  lemma {:induction false} EncodeIgnoresBytes(a: seq<JByte>, b: seq<JByte>)
    requires |a| == |b|
    ensures Encode(a) == Encode(b)
  {
    if |a| > 0 {
      EncodeIgnoresBytes(a[..|a| - 1], b[..|b| - 1]);
    }
  }

  /** Every password hashes to the same string, whatever the digest function does. */
  lemma HasherIgnoresPassword(sha: Sha256, p: string, q: string)
    ensures Hasher(sha, p) == Hasher(sha, q)
  {
    EncodeIgnoresBytes(sha(p), sha(q));
  }

  /**
    The doc-comment promises 64 lowercase hexadecimal characters; the output
    has 96, and every third one is an 'x'.
   */
  lemma HasherIsNotLowerHex(sha: Sha256, p: string)
    ensures |Hasher(sha, p)| != 64
    ensures Hasher(sha, p)[2] == 'x' && !IsLowerHexDigit(Hasher(sha, p)[2])
  {
  }
}

=== FILE: story_dao.dfy ===
/**
  `StoryDAO`: create, fetch, update, list and delete over the `story` table.
  Its methods are static and open their own connection each call. Every
  story written goes through the `Story` getters, so the genre, status and
  synopsis columns always receive the title.
 */
module StoryDao {
  import opened JavaLang
  import opened Tables
  import opened Database
  import opened StoryRecord

  /**
    The Story object the SELECTs build from a row with the six-argument
    constructor: the key and the creation date come through, and the three
    getters that echo the title read the title column, whatever the genre,
    status and synopsis columns hold.
   */
  function ToStory(row: Row<StoryCols>): (s: Story)
    ensures Observe(s) == View(row.key, row.cols.title, row.cols.title, row.cols.title, row.cols.title,
                               NonNull(row.cols.created))
  {
    Make(row.key, row.cols.title, row.cols.genre, row.cols.status, row.cols.synopsis, NonNull(row.cols.created))
  }

  /** The columns `createStory` binds, owned by `userId`, stamped `now`. */
  function BoundColumns(story: Story, userId: int, now: Timestamp): (c: StoryCols)
    ensures c.genre == c.status == c.synopsis == c.title == GetTitle(story)
  {
    StoryCols(userId, GetTitle(story), GetGenre(story), GetStatus(story), GetSynopsis(story), now)
  }

  /**
    `createStory`: inserts one row owned by the session user and returns the
    input story with its id set to the generated key. When the insert affects
    no row, or raises, it throws and the store is unchanged. There must be a
    session: `currentUser.getID()` is called on it.
   */
  function CreateStory(st: State, story: Story, effect: InsertEffect, now: Timestamp): (r: Step<Try<Story>>)
    requires st.session.NonNull?
    ensures r.result.Returned? <==> effect.Inserted?
    ensures !effect.Inserted? ==> r.next == st
    ensures effect.NoRowsAffected? ==> r.result == Threw("Creating story failed, no rows affected.")
    ensures r.next.session == st.session && r.next.db.users == st.db.users
    ensures r.next.db.characters == st.db.characters && r.next.db.traits == st.db.traits
    ensures r.result.Returned? ==>
              && r.result.value == SetId(story, GetId(r.result.value))
              && r.next.db.stories.rows == st.db.stories.rows
                   + [Row(GetId(r.result.value), StoryCols(SessionId(st), GetTitle(story), GetTitle(story),
                                                          GetTitle(story), GetTitle(story), now))]
    ensures r.result.Returned? && WellFormed(st.db) ==>
              GetId(r.result.value) >= FirstKey && !HasKey(st.db.stories, GetId(r.result.value))
    ensures WellFormed(st.db) ==> WellFormed(r.next.db)
  {
    match effect
    case Inserted =>
      var (stories, key) := Insert(st.db.stories, BoundColumns(story, SessionId(st), now));
      Step(Returned(SetId(story, key)), st.(db := st.db.(stories := stories)))
    case NoRowsAffected => Step(Threw("Creating story failed, no rows affected."), st)
    case InsertFailed(message) => Step(Threw(message), st)
  }

  /**
    `getStoryById`: the row with that key, whoever owns it, or null when there
    is none; an SQL error is caught and also yields null.
   */
  function GetStoryById(st: State, id: int, fault: Fault): (r: Nullable<Story>)
    ensures r.NonNull? <==> fault.NoFault? && HasKey(st.db.stories, id)
    ensures forall i :: r.NonNull? && IsFirstWithKey(st.db.stories.rows, id, i) ==> r.value == ToStory(st.db.stories.rows[i])
  {
    if fault.SqlError? then Null
    else
      match FindFirst(st.db.stories.rows, (row: Row<StoryCols>) => row.key == id)
      case NotFound => Null
      case FoundAt(i) =>
        assert IsFirstWithKey(st.db.stories.rows, id, i);
        NonNull(ToStory(st.db.stories.rows[i]))
  }

  /**
    The SET clause of `updateStory`: the four columns from the four getters,
    which all read the title; owner and creation date stay.
   */
  function Rewrite(story: Story, c: StoryCols): (r: StoryCols)
    ensures r.userId == c.userId && r.created == c.created
    ensures r.title == r.genre == r.status == r.synopsis == GetTitle(story)
  {
    c.(title := GetTitle(story), genre := GetGenre(story), status := GetStatus(story), synopsis := GetSynopsis(story))
  }

  /**
    `updateStory`: rewrites title, genre, status and synopsis — all four from
    the title — of the rows whose key is the story's id; owner and creation
    date stay. The affected count is not checked, so a missing id changes
    nothing and still returns normally.
   */
  function UpdateStory(st: State, story: Story, fault: Fault): (r: Step<Try<()>>)
    ensures fault.SqlError? ==> r == Step(Threw(fault.message), st)
    ensures fault.NoFault? ==> r.result == Returned(())
    ensures r.next.session == st.session && r.next.db.users == st.db.users
    ensures r.next.db.characters == st.db.characters && r.next.db.traits == st.db.traits
    ensures |r.next.db.stories.rows| == |st.db.stories.rows| && r.next.db.stories.nextKey == st.db.stories.nextKey
    ensures forall i :: 0 <= i < |st.db.stories.rows| && st.db.stories.rows[i].key != GetId(story) ==>
              r.next.db.stories.rows[i] == st.db.stories.rows[i]
    ensures forall i :: 0 <= i < |st.db.stories.rows| && st.db.stories.rows[i].key == GetId(story) && fault.NoFault? ==>
              var prior := st.db.stories.rows[i].cols;
              r.next.db.stories.rows[i] ==
                Row(GetId(story), StoryCols(prior.userId, GetTitle(story), GetTitle(story), GetTitle(story),
                                           GetTitle(story), prior.created))
    ensures !HasKey(st.db.stories, GetId(story)) ==> r.next == st
    ensures WellFormed(st.db) ==> WellFormed(r.next.db)
  {
    if fault.SqlError? then Step(Threw(fault.message), st)
    else
      var (stories, _) := UpdateWhere(st.db.stories, (row: Row<StoryCols>) => row.key == GetId(story),
                                      (c: StoryCols) => Rewrite(story, c));
      Step(Returned(()), st.(db := st.db.(stories := stories)))
  }

  /** The rows owned by `userId`. */
  function OwnedRows(rows: seq<Row<StoryCols>>, userId: int): (r: seq<Row<StoryCols>>)
    ensures forall x :: x in r <==> x in rows && x.cols.userId == userId
    ensures DistinctKeys(rows) ==> DistinctKeys(r)
  {
    Filter(rows, (row: Row<StoryCols>) => row.cols.userId == userId)
  }

  /**
    `getAllStories`: the rows owned by the session user, as Story objects
    with no id twice, or null when the query raises.
   */
  function GetAllStories(st: State, fault: Fault): (r: Nullable<seq<Story>>)
    requires st.session.NonNull?
    ensures r.Null? <==> fault.SqlError?
    ensures r.NonNull? ==>
              forall s :: s in r.value <==>
                exists row :: row in st.db.stories.rows && row.cols.userId == SessionId(st) && s == ToStory(row)
    ensures r.NonNull? && WellFormed(st.db) ==>
              forall i, j :: 0 <= i < j < |r.value| ==> GetId(r.value[i]) != GetId(r.value[j])
  {
    if fault.SqlError? then Null
    else
      var owned := OwnedRows(st.db.stories.rows, SessionId(st));
      var stories := seq(|owned|, i requires 0 <= i < |owned| => ToStory(owned[i]));
      assert forall row :: row in owned ==> ToStory(row) in stories by {
        forall row | row in owned
          ensures ToStory(row) in stories
        {
          var i :| 0 <= i < |owned| && owned[i] == row;
          assert stories[i] == ToStory(row);
        }
      }
      NonNull(stories)
  }

  /**
    `deleteStory`: removes the rows with that key and leaves every other row;
    an absent key changes nothing.
   */
  function DeleteStory(st: State, id: int, fault: Fault): (r: Step<Try<()>>)
    ensures fault.SqlError? ==> r == Step(Threw(fault.message), st)
    ensures fault.NoFault? ==> r.result == Returned(())
    ensures fault.NoFault? ==> forall x :: x in r.next.db.stories.rows <==> x in st.db.stories.rows && x.key != id
    ensures r.next.session == st.session && r.next.db.users == st.db.users
    ensures r.next.db.characters == st.db.characters && r.next.db.traits == st.db.traits
    ensures !HasKey(st.db.stories, id) ==> r.next == st
    ensures r.next.db.stories.nextKey == st.db.stories.nextKey
    ensures WellFormed(st.db) ==> WellFormed(r.next.db)
  {
    if fault.SqlError? then Step(Threw(fault.message), st)
    else
      var (stories, _) := DeleteWhere(st.db.stories, (row: Row<StoryCols>) => row.key == id);
      Step(Returned(()), st.(db := st.db.(stories := stories)))
  }

  // ---------------------------------------------------------------------------
  // Properties across operations
  // ---------------------------------------------------------------------------

  /** Every stored story has genre = status = synopsis = title. */
  ghost predicate TitleEcho(db: Store)
  {
    forall i :: 0 <= i < |db.stories.rows| ==>
      var c := db.stories.rows[i].cols;
      c.genre == c.title && c.status == c.title && c.synopsis == c.title
  }

  /**
    Creating, updating and deleting stories all keep `TitleEcho`; a fresh,
    empty database has it. Rows written by anything other than these DAOs
    are not covered.
   */
  lemma {:induction false} StoryWritesKeepTitleEcho(st: State, story: Story, effect: InsertEffect,
                                                     now: Timestamp, id: int, fault: Fault)
    requires TitleEcho(st.db)
    ensures TitleEcho(Initial().db)
    ensures st.session.NonNull? ==> TitleEcho(CreateStory(st, story, effect, now).next.db)
    ensures TitleEcho(UpdateStory(st, story, fault).next.db)
    ensures TitleEcho(DeleteStory(st, id, fault).next.db)
  {
    if st.session.NonNull? {
      CreateKeepsTitleEcho(st, story, effect, now);
    }
    UpdateKeepsTitleEcho(st, story, fault);
    DeleteKeepsTitleEcho(st, id, fault);
  }

  /** An update rewrites genre, status and synopsis to the new title along with the title itself. */
  lemma UpdateKeepsTitleEcho(st: State, story: Story, fault: Fault)
    requires TitleEcho(st.db)
    ensures TitleEcho(UpdateStory(st, story, fault).next.db)
  {
    var next := UpdateStory(st, story, fault).next;
    forall i | 0 <= i < |next.db.stories.rows|
      ensures next.db.stories.rows[i].cols.genre == next.db.stories.rows[i].cols.title
      ensures next.db.stories.rows[i].cols.status == next.db.stories.rows[i].cols.title
      ensures next.db.stories.rows[i].cols.synopsis == next.db.stories.rows[i].cols.title
    {
      if st.db.stories.rows[i].key != GetId(story) {
        assert next.db.stories.rows[i] == st.db.stories.rows[i];
      }
    }
  }

  /** A created row echoes its title, and the rows before it are untouched. */
  lemma CreateKeepsTitleEcho(st: State, story: Story, effect: InsertEffect, now: Timestamp)
    requires TitleEcho(st.db) && st.session.NonNull?
    ensures TitleEcho(CreateStory(st, story, effect, now).next.db)
  {
    if effect.Inserted? {
      var next := CreateStory(st, story, effect, now).next;
      assert forall i :: 0 <= i < |st.db.stories.rows| ==> next.db.stories.rows[i] == st.db.stories.rows[i];
    }
  }

  /** Deleting keeps only rows that were already there. */
  lemma DeleteKeepsTitleEcho(st: State, id: int, fault: Fault)
    requires TitleEcho(st.db)
    ensures TitleEcho(DeleteStory(st, id, fault).next.db)
  {
    var del := DeleteStory(st, id, fault).next;
    forall i | 0 <= i < |del.db.stories.rows|
      ensures del.db.stories.rows[i].cols.genre == del.db.stories.rows[i].cols.title
      ensures del.db.stories.rows[i].cols.status == del.db.stories.rows[i].cols.title
      ensures del.db.stories.rows[i].cols.synopsis == del.db.stories.rows[i].cols.title
    {
      assert del.db.stories.rows[i] in st.db.stories.rows;
    }
  }

  /** In a well-formed table the first row with a key is the only one. */
  lemma FirstWithKeyIsUnique<T>(t: Table<T>, i: int)
    requires Tables.Valid(t) && 0 <= i < |t.rows|
    ensures IsFirstWithKey(t.rows, t.rows[i].key, i)
  {
  }

  /**
    Create, then fetch by the returned id: the title comes back, and so do
    genre, status and synopsis — each equal to the title, whatever the
    story's own genre, status and synopsis fields held.
   */
  lemma CreateThenGet(st: State, story: Story, now: Timestamp)
    requires WellFormed(st.db) && st.session.NonNull?
    ensures var created := CreateStory(st, story, Inserted, now);
            var fetched := GetStoryById(created.next, GetId(created.result.value), NoFault);
            && fetched.NonNull?
            && Observe(fetched.value)
               == View(GetId(created.result.value), GetTitle(story), GetTitle(story), GetTitle(story),
                       GetTitle(story), NonNull(now))
  {
    var created := CreateStory(st, story, Inserted, now);
    var t := created.next.db.stories;
    FirstWithKeyIsUnique(t, |st.db.stories.rows|);
  }

  /** Update, then fetch: the new title, echoed into genre, status and synopsis. */
  lemma UpdateThenGet(st: State, story: Story)
    requires WellFormed(st.db) && HasKey(st.db.stories, GetId(story))
    ensures var fetched := GetStoryById(UpdateStory(st, story, NoFault).next, GetId(story), NoFault);
            && fetched.NonNull?
            && GetTitle(fetched.value) == GetTitle(story)
            && fetched.value.genre == fetched.value.status == fetched.value.synopsis == GetTitle(story)
  {
    var t := UpdateStory(st, story, NoFault).next.db.stories;
    var i :| 0 <= i < |st.db.stories.rows| && st.db.stories.rows[i].key == GetId(story);
    FirstWithKeyIsUnique(t, i);
  }

  /** Delete, then fetch: null, whether or not the fetch itself hits an SQL error. */
  lemma DeleteThenGetIsNull(st: State, id: int, fault: Fault)
    ensures GetStoryById(DeleteStory(st, id, NoFault).next, id, fault).Null?
  {
    var t := DeleteStory(st, id, NoFault).next.db.stories;
    assert forall i :: 0 <= i < |t.rows| ==> t.rows[i] in t.rows && t.rows[i].key != id;
  }

  /**
    Listing never leaks another user's story: no listed story carries the key
    of a row owned by a different user.
   */
  lemma ListingIsPerUser(st: State, other: Row<StoryCols>)
    requires WellFormed(st.db) && st.session.NonNull?
    requires other in st.db.stories.rows && other.cols.userId != SessionId(st)
    ensures var listed := GetAllStories(st, NoFault);
            forall s :: s in listed.value ==> GetId(s) != other.key
  {
    var listed := GetAllStories(st, NoFault).value;
    forall s | s in listed
      ensures GetId(s) != other.key
    {
      var row :| row in st.db.stories.rows && row.cols.userId == SessionId(st) && s == ToStory(row);
      var i :| 0 <= i < |st.db.stories.rows| && st.db.stories.rows[i] == row;
      var j :| 0 <= j < |st.db.stories.rows| && st.db.stories.rows[j] == other;
      assert i != j;
    }
  }
}

=== FILE: story_record.dfy ===
/**
  The `Story` entity record exactly as written: a six-field holder whose
  genre, status and synopsis getters all read the title field, and whose
  `setDate(String)` writes the title.
 */
module StoryRecord {
  import opened JavaLang

  datatype Story = Story(
    storyId: int,
    title: Nullable<string>,
    genre: Nullable<string>,
    status: Nullable<string>,
    synopsis: Nullable<string>,
    creationDate: Nullable<Timestamp>)

  /** Everything a caller can observe of a Story: the results of its six getters. */
  datatype View = View(
    id: int,
    title: Nullable<string>,
    genre: Nullable<string>,
    status: Nullable<string>,
    synopsis: Nullable<string>,
    date: Nullable<Timestamp>)

  function Observe(s: Story): View
  {
    View(GetId(s), GetTitle(s), GetGenre(s), GetStatus(s), GetSynopsis(s), GetDate(s))
  }

  /** `new Story()`: Java's defaults, 0 and null. */
  function Default(): (s: Story)
    ensures Observe(s) == View(0, Null, Null, Null, Null, Null)
  {
    Story(0, Null, Null, Null, Null, Null)
  }

  /**
    The six-argument constructor stores every argument in its own field, yet
    the genre, status and synopsis a caller reads back are the title.
   */
  function Make(id: int, title: Nullable<string>, genre: Nullable<string>, status: Nullable<string>,
                synopsis: Nullable<string>, date: Nullable<Timestamp>): (s: Story)
    ensures s.genre == genre && s.status == status && s.synopsis == synopsis
    ensures Observe(s) == View(id, title, title, title, title, date)
  {
    Story(id, title, genre, status, synopsis, date)
  }

  function GetId(s: Story): int
  {
    s.storyId
  }

  function GetTitle(s: Story): Nullable<string>
  {
    s.title
  }

  /** Reads the title field, not the genre field. */
  function GetGenre(s: Story): (r: Nullable<string>)
    ensures r == GetTitle(s)
  {
    s.title
  }

  /** Reads the title field, not the status field. */
  function GetStatus(s: Story): (r: Nullable<string>)
    ensures r == GetTitle(s)
  {
    s.title
  }

  /** Reads the title field, not the synopsis field. */
  function GetSynopsis(s: Story): (r: Nullable<string>)
    ensures r == GetTitle(s)
  {
    s.title
  }

  function GetDate(s: Story): Nullable<Timestamp>
  {
    s.creationDate
  }

  function SetId(s: Story, id: int): (r: Story)
    ensures Observe(r) == Observe(s).(id := id)
  {
    s.(storyId := id)
  }

  /** Changes what the title, genre, status and synopsis getters all return. */
  function SetTitle(s: Story, title: Nullable<string>): (r: Story)
    ensures Observe(r) == Observe(s).(title := title, genre := title, status := title, synopsis := title)
  {
    s.(title := title)
  }

  /** Writes the genre field, which no getter reads. */
  function SetGenre(s: Story, genre: Nullable<string>): (r: Story)
    ensures r.genre == genre
    ensures Observe(r) == Observe(s)
  {
    s.(genre := genre)
  }

  /** Writes the status field, which no getter reads. */
  function SetStatus(s: Story, status: Nullable<string>): (r: Story)
    ensures r.status == status
    ensures Observe(r) == Observe(s)
  {
    s.(status := status)
  }

  /** Writes the synopsis field, which no getter reads. */
  function SetSynopsis(s: Story, synopsis: Nullable<string>): (r: Story)
    ensures r.synopsis == synopsis
    ensures Observe(r) == Observe(s)
  {
    s.(synopsis := synopsis)
  }

  /** `setDate(String title)` overwrites the title; the creation date is untouched. */
  function SetDate(s: Story, title: Nullable<string>): (r: Story)
    ensures GetTitle(r) == title
    ensures GetDate(r) == GetDate(s) && GetId(r) == GetId(s)
  {
    s.(title := title)
  }

  lemma SetDateActsAsSetTitle(s: Story, title: Nullable<string>)
    ensures SetDate(s, title) == SetTitle(s, title)
  {
  }
}

=== FILE: tables.dfy ===
/**
  An abstract relational table: rows in the storage's natural order, each with
  a store-generated integer key (an AUTO_INCREMENT counter starting at 1), and
  the four statement shapes the data-access layer issues against it — INSERT
  with a generated key, SELECT of the first matching row, SELECT of all
  matching rows, and UPDATE / DELETE over a WHERE predicate with the count of
  affected rows.
 */
module Tables {

  datatype Row<T> = Row(key: int, cols: T)

  /** `nextKey` is the key the next INSERT will be given. */
  datatype Table<T> = Table(rows: seq<Row<T>>, nextKey: int)

  /** Keys handed out by AUTO_INCREMENT start here. */
  const FirstKey: int := 1

  function NewTable<T>(): (t: Table<T>)
    ensures Valid(t) && |t.rows| == 0
  {
    Table([], FirstKey)
  }

  predicate DistinctKeys<T>(rows: seq<Row<T>>)
  {
    forall i, j :: 0 <= i < j < |rows| ==> rows[i].key != rows[j].key
  }

  /** Keys are unique and every key was handed out before `nextKey`. */
  predicate Valid<T>(t: Table<T>)
  {
    && FirstKey <= t.nextKey
    && DistinctKeys(t.rows)
    && (forall i :: 0 <= i < |t.rows| ==> FirstKey <= t.rows[i].key < t.nextKey)
  }

  predicate HasKey<T>(t: Table<T>, k: int)
  {
    exists i :: 0 <= i < |t.rows| && t.rows[i].key == k
  }

  /**
    INSERT: appends one row with the generated key and returns the new table
    and that key, which no row of a valid table already carries.
   */
  function Insert<T>(t: Table<T>, cols: T): (r: (Table<T>, int))
    ensures r.0.rows == t.rows + [Row(r.1, cols)]
    ensures r.1 >= t.nextKey && r.0.nextKey > r.1
    ensures Valid(t) ==> !HasKey(t, r.1) && Valid(r.0)
  {
    var rows := t.rows + [Row(t.nextKey, cols)];
    assert forall i :: 0 <= i < |t.rows| ==> rows[i] == t.rows[i];
    (Table(rows, t.nextKey + 1), t.nextKey)
  }

  /** Result of looking for the first matching row. */
  datatype Found = NotFound | FoundAt(index: nat)

  /** The first row, in storage order, that satisfies `p` — what `ResultSet.next()` yields first. */
  function FindFirst<T>(rows: seq<Row<T>>, p: Row<T> -> bool): (r: Found)
    ensures r.FoundAt? ==> r.index < |rows| && p(rows[r.index])
    ensures r.FoundAt? ==> forall j :: 0 <= j < r.index ==> !p(rows[j])
    ensures r.NotFound? <==> forall j :: 0 <= j < |rows| ==> !p(rows[j])
  {
    if |rows| == 0 then NotFound
    else if p(rows[0]) then FoundAt(0)
    else
      match FindFirst(rows[1..], p)
      case NotFound => NotFound
      case FoundAt(i) => FoundAt(i + 1)
  }

  /** Row `i` is the first in storage order whose key is `id`. */
  ghost predicate IsFirstWithKey<T>(rows: seq<Row<T>>, id: int, i: int)
  {
    && 0 <= i < |rows|
    && rows[i].key == id
    && forall j :: 0 <= j < i ==> rows[j].key != id
  }

  /** The rows satisfying `keep`: each kept row once, with keys kept distinct. */
  function Filter<T(!new)>(rows: seq<Row<T>>, keep: Row<T> -> bool): (r: seq<Row<T>>)
    ensures |r| <= |rows|
    ensures forall x :: x in r <==> x in rows && keep(x)
    ensures (forall i :: 0 <= i < |rows| ==> keep(rows[i])) ==> r == rows
    ensures (exists i :: 0 <= i < |rows| && !keep(rows[i])) ==> |r| < |rows|
    ensures DistinctKeys(rows) ==> DistinctKeys(r)
  {
    if |rows| == 0 then []
    else
      var tail := Filter(rows[1..], keep);
      assert rows == [rows[0]] + rows[1..];
      assert forall i :: 1 <= i < |rows| ==> rows[i] == rows[1..][i - 1];
      if keep(rows[0]) then
        assert DistinctKeys(rows) ==> DistinctKeys([rows[0]] + tail) by {
          if DistinctKeys(rows) {
            forall x | x in tail
              ensures x.key != rows[0].key
            {
              var i :| 0 <= i < |rows[1..]| && rows[1..][i] == x;
              assert rows[i + 1] == x;
            }
            DistinctCons(rows[0], tail);
          }
        }
        [rows[0]] + tail
      else
        tail
  }

  /** A row whose key no row of `tail` has can go in front of distinct rows. */
  lemma DistinctCons<T>(row: Row<T>, tail: seq<Row<T>>)
    requires DistinctKeys(tail) && forall x :: x in tail ==> x.key != row.key
    ensures DistinctKeys([row] + tail)
  {
    var r := [row] + tail;
    forall i, j | 0 <= i < j < |r|
      ensures r[i].key != r[j].key
    {
      assert r[j] == tail[j - 1];
      if i > 0 {
        assert r[i] == tail[i - 1];
      } else {
        assert tail[j - 1] in tail;
      }
    }
  }

  /** How many rows satisfy `p`: the affected-row count JDBC reports. */
  function Count<T>(rows: seq<Row<T>>, p: Row<T> -> bool): (n: nat)
    ensures n <= |rows|
    ensures n > 0 <==> exists i :: 0 <= i < |rows| && p(rows[i])
  {
    if |rows| == 0 then 0
    else
      var rest := Count(rows[1..], p);
      assert forall i :: 1 <= i < |rows| ==> rows[i] == rows[1..][i - 1];
      assert (exists i :: 0 <= i < |rows[1..]| && p(rows[1..][i])) ==> exists i :: 0 <= i < |rows| && p(rows[i]) by {
        if exists i :: 0 <= i < |rows[1..]| && p(rows[1..][i]) {
          var i :| 0 <= i < |rows[1..]| && p(rows[1..][i]);
          assert p(rows[i + 1]);
        }
      }
      (if p(rows[0]) then 1 else 0) + rest
  }

  /** DELETE ... WHERE p: the surviving table and the number of deleted rows. */
  function DeleteWhere<T(!new)>(t: Table<T>, p: Row<T> -> bool): (r: (Table<T>, nat))
    ensures forall x :: x in r.0.rows <==> x in t.rows && !p(x)
    ensures r.0.nextKey == t.nextKey
    ensures r.1 > 0 <==> exists i :: 0 <= i < |t.rows| && p(t.rows[i])
    ensures r.1 == 0 ==> r.0 == t
    ensures Valid(t) ==> Valid(r.0)
  {
    var kept := Filter(t.rows, x => !p(x));
    var n := Count(t.rows, p);
    assert Valid(t) ==> Valid(Table(kept, t.nextKey)) by {
      if Valid(t) {
        forall i | 0 <= i < |kept|
          ensures FirstKey <= kept[i].key < t.nextKey
        {
          assert kept[i] in t.rows;
        }
      }
    }
    (Table(kept, t.nextKey), n)
  }

  /** One row after `UPDATE ... SET f WHERE p`: the key never changes. */
  function UpdateRow<T>(x: Row<T>, p: Row<T> -> bool, f: T -> T): Row<T>
  {
    if p(x) then Row(x.key, f(x.cols)) else x
  }

  /** UPDATE ... SET f WHERE p: rows stay in place, matching rows get new columns. */
  function UpdateWhere<T>(t: Table<T>, p: Row<T> -> bool, f: T -> T): (r: (Table<T>, nat))
    ensures |r.0.rows| == |t.rows| && r.0.nextKey == t.nextKey
    ensures forall i :: 0 <= i < |t.rows| ==> r.0.rows[i].key == t.rows[i].key
    ensures forall i :: 0 <= i < |t.rows| && !p(t.rows[i]) ==> r.0.rows[i] == t.rows[i]
    ensures forall i :: 0 <= i < |t.rows| && p(t.rows[i]) ==> r.0.rows[i].cols == f(t.rows[i].cols)
    ensures r.1 > 0 <==> exists i :: 0 <= i < |t.rows| && p(t.rows[i])
    ensures r.1 == 0 ==> r.0 == t
    ensures Valid(t) ==> Valid(r.0)
  {
    var rows := seq(|t.rows|, i requires 0 <= i < |t.rows| => UpdateRow(t.rows[i], p, f));
    var n := Count(t.rows, p);
    assert n == 0 ==> rows == t.rows;
    (Table(rows, t.nextKey), n)
  }
}

=== FILE: trait_dao.dfy ===
/**
  `TraitDAO`: add, rename, delete and probe traits by name. The DAO instance
  holds one connection, opened in its constructor, which may be null. Only
  `addTrait` consults the session; rename, delete and the probe match rows
  of every user.
 */
module TraitDao {
  import opened JavaLang
  import opened Tables
  import opened Database

  ghost predicate HasTraitNamed(db: Store, name: string)
  {
    exists i :: 0 <= i < |db.traits.rows| && db.traits.rows[i].cols.name == name
  }

  /** Row `i` is the first in storage order named `name`: the row `renameTrait`'s SELECT yields. */
  ghost predicate IsFirstNamed(rows: seq<Row<TraitCols>>, name: string, i: int)
  {
    && 0 <= i < |rows|
    && rows[i].cols.name == name
    && forall j :: 0 <= j < i ==> rows[j].cols.name != name
  }

  /**
    `addTrait`: with a connection, inserts one row `(name, session user id)`
    — no duplicate check — and reports whether a row was inserted. Without a
    connection it reports false and changes nothing; with one, the session
    must be set, since its id is read.
   */
  function AddTrait(st: State, conn: Connection, name: string, effect: InsertEffect): (r: Step<bool>)
    requires conn.NoConnection? || st.session.NonNull?
    ensures conn.NoConnection? ==> r == Step(false, st)
    ensures r.result <==> conn.Connected? && effect.Inserted?
    ensures !r.result ==> r.next == st
    ensures r.next.session == st.session && r.next.db.users == st.db.users
    ensures r.next.db.stories == st.db.stories && r.next.db.characters == st.db.characters
    ensures r.result ==>
              && |r.next.db.traits.rows| == |st.db.traits.rows| + 1
              && r.next.db.traits.rows[..|st.db.traits.rows|] == st.db.traits.rows
              && r.next.db.traits.rows[|st.db.traits.rows|].cols == TraitCols(SessionId(st), name)
    ensures WellFormed(st.db) ==> WellFormed(r.next.db)
  {
    if conn.NoConnection? then Step(false, st)
    else
      match effect
      case Inserted =>
        var (traits, _) := Insert(st.db.traits, TraitCols(SessionId(st), name));
        Step(true, st.(db := st.db.(traits := traits)))
      case NoRowsAffected => Step(false, st)
      case InsertFailed(_) => Step(false, st)
  }

  /**
    `renameTrait`: finds the first row of any user named `oldName` and
    renames that row, by its key, to `newName`. Other rows named `oldName`
    keep their name. Reports false, changing nothing, when there is no
    connection, no such row, or an SQL error in either statement.
   */
  function RenameTrait(st: State, conn: Connection, oldName: string, newName: string,
                       selectFault: Fault, updateFault: Fault): (r: Step<bool>)
    ensures conn.NoConnection? ==> r == Step(false, st)
    ensures !HasTraitNamed(st.db, oldName) ==> r == Step(false, st)
    ensures r.result <==>
              conn.Connected? && selectFault.NoFault? && updateFault.NoFault? && HasTraitNamed(st.db, oldName)
    ensures !r.result ==> r.next == st
    ensures r.next.session == st.session && r.next.db.users == st.db.users
    ensures r.next.db.stories == st.db.stories && r.next.db.characters == st.db.characters
    ensures |r.next.db.traits.rows| == |st.db.traits.rows|
    ensures forall i :: r.result && WellFormed(st.db) && IsFirstNamed(st.db.traits.rows, oldName, i) ==>
              && r.next.db.traits.rows[i] == Row(st.db.traits.rows[i].key, st.db.traits.rows[i].cols.(name := newName))
              && forall j :: 0 <= j < |st.db.traits.rows| && j != i ==> r.next.db.traits.rows[j] == st.db.traits.rows[j]
    ensures WellFormed(st.db) ==> WellFormed(r.next.db)
  {
    if conn.NoConnection? || selectFault.SqlError? then Step(false, st)
    else
      match FindFirst(st.db.traits.rows, (row: Row<TraitCols>) => row.cols.name == oldName)
      case NotFound => Step(false, st)
      case FoundAt(i) =>
        var id := st.db.traits.rows[i].key;
        assert IsFirstNamed(st.db.traits.rows, oldName, i);
        if updateFault.SqlError? then Step(false, st)
        else
          var (traits, rows) := UpdateWhere(st.db.traits, (row: Row<TraitCols>) => row.key == id,
                                            (c: TraitCols) => c.(name := newName));
          Step(rows > 0, st.(db := st.db.(traits := traits)))
  }

  /**
    `deleteTrait`: removes every row named `name`, of every user, and reports
    whether any row was removed.
   */
  function DeleteTrait(st: State, conn: Connection, name: string, fault: Fault): (r: Step<bool>)
    ensures conn.NoConnection? || fault.SqlError? ==> r == Step(false, st)
    ensures r.result <==> conn.Connected? && fault.NoFault? && HasTraitNamed(st.db, name)
    ensures conn.Connected? && fault.NoFault? ==>
              forall x :: x in r.next.db.traits.rows <==> x in st.db.traits.rows && x.cols.name != name
    ensures r.next.db.traits.nextKey == st.db.traits.nextKey
    ensures r.next.session == st.session && r.next.db.users == st.db.users
    ensures r.next.db.stories == st.db.stories && r.next.db.characters == st.db.characters
    ensures WellFormed(st.db) ==> WellFormed(r.next.db)
  {
    if conn.NoConnection? || fault.SqlError? then Step(false, st)
    else
      var (traits, rows) := DeleteWhere(st.db.traits, (row: Row<TraitCols>) => row.cols.name == name);
      Step(rows > 0, st.(db := st.db.(traits := traits)))
  }

  /** `checkTrait`: whether any user's row is named `name`; a null connection throws, so one is required. */
  function CheckTrait(st: State, conn: Connection, name: string, fault: Fault): (r: bool)
    requires conn.Connected?
    ensures r <==> fault.NoFault? && HasTraitNamed(st.db, name)
  {
    fault.NoFault? && FindFirst(st.db.traits.rows, (row: Row<TraitCols>) => row.cols.name == name).FoundAt?
  }

  /** At least two rows carry `name`. */
  ghost predicate NamedTwice(db: Store, name: string)
  {
    exists j, k :: 0 <= j < k < |db.traits.rows| && db.traits.rows[j].cols.name == name && db.traits.rows[k].cols.name == name
  }

  /**
    After a successful rename the new name exists; the old name survives
    exactly when the names coincide or more than one row carried it, since
    only the first such row is renamed.
   */
  lemma RenameThenCheck(st: State, oldName: string, newName: string)
    requires WellFormed(st.db) && HasTraitNamed(st.db, oldName)
    ensures var next := RenameTrait(st, Connected, oldName, newName, NoFault, NoFault).next;
            && CheckTrait(next, Connected, newName, NoFault)
            && (CheckTrait(next, Connected, oldName, NoFault) <==> newName == oldName || NamedTwice(st.db, oldName))
  {
    var rows := st.db.traits.rows;
    var first := FindFirst(rows, (row: Row<TraitCols>) => row.cols.name == oldName).index;
    assert IsFirstNamed(rows, oldName, first);
    var next := RenameTrait(st, Connected, oldName, newName, NoFault, NoFault).next.db.traits.rows;
    RenameOnlyFirst(st, oldName, newName, first);
    assert next[first].cols.name == newName;
    if NamedTwice(st.db, oldName) {
      SecondNamedSurvives(rows, next, oldName, first);
    }
    if newName != oldName && exists j :: 0 <= j < |next| && next[j].cols.name == oldName {
      var j :| 0 <= j < |next| && next[j].cols.name == oldName;
      assert j != first;
      assert rows[j] == next[j];
      assert first < j;
    }
  }

  /** A successful rename replaces the name of the first matching row and leaves every other row as it was. */
  lemma RenameOnlyFirst(st: State, oldName: string, newName: string, first: int)
    requires WellFormed(st.db) && IsFirstNamed(st.db.traits.rows, oldName, first)
    ensures var next := RenameTrait(st, Connected, oldName, newName, NoFault, NoFault).next.db.traits.rows;
            && |next| == |st.db.traits.rows|
            && next[first].cols.name == newName
            && forall j :: 0 <= j < |next| && j != first ==> next[j] == st.db.traits.rows[j]
  {
    assert HasTraitNamed(st.db, oldName);
  }

  /** When two rows carry a name, the later one is not the first and keeps it through the rename. */
  lemma SecondNamedSurvives(rows: seq<Row<TraitCols>>, next: seq<Row<TraitCols>>, name: string, first: int)
    requires IsFirstNamed(rows, name, first) && |next| == |rows|
    requires forall j :: 0 <= j < |next| && j != first ==> next[j] == rows[j]
    requires exists j, k :: 0 <= j < k < |rows| && rows[j].cols.name == name && rows[k].cols.name == name
    ensures exists k :: 0 <= k < |next| && next[k].cols.name == name
  {
    var j, k :| 0 <= j < k < |rows| && rows[j].cols.name == name && rows[k].cols.name == name;
    assert next[k] == rows[k];
  }

  /** After a successful delete no row of any user carries the name. */
  lemma DeleteThenCheck(st: State, name: string)
    ensures !CheckTrait(DeleteTrait(st, Connected, name, NoFault).next, Connected, name, NoFault)
  {
    var t := DeleteTrait(st, Connected, name, NoFault).next.db.traits;
    assert forall i :: 0 <= i < |t.rows| ==> t.rows[i] in t.rows && t.rows[i].cols.name != name;
  }

  /** After a successful add the name exists. */
  lemma AddThenCheck(st: State, name: string)
    requires st.session.NonNull?
    ensures CheckTrait(AddTrait(st, Connected, name, Inserted).next, Connected, name, NoFault)
  {
    var t := AddTrait(st, Connected, name, Inserted).next.db.traits;
    assert t.rows[|st.db.traits.rows|].cols.name == name;
  }
}

=== FILE: user_dao.dfy ===
/**
  `UserDAO`: login, registration, the username probe and account deletion
  over the `users` table, and the session (`currentUser`) that login sets
  and self-deletion clears. The DAO instance holds one connection, opened in
  its constructor, which may be null.
 */
module UserDao {
  import opened JavaLang
  import opened Tables
  import opened Database
  import UserRecord
  import Passwords

  /** Row `i` is the first in storage order with username `u`: the row `result.next()` yields. */
  ghost predicate IsFirstNamed(rows: seq<Row<UserCols>>, u: string, i: int)
  {
    && 0 <= i < |rows|
    && rows[i].cols.username == u
    && forall j :: 0 <= j < i ==> rows[j].cols.username != u
  }

  ghost predicate HasUsername(db: Store, u: string)
  {
    exists i :: 0 <= i < |db.users.rows| && db.users.rows[i].cols.username == u
  }

  /** `new User(user_id, username, Optional.empty(), Optional.empty(), Optional.empty())`. */
  function SessionUser(row: Row<UserCols>): (u: UserRecord.User)
    ensures UserRecord.Observe(u) == UserRecord.View(row.key, NonNull(row.cols.username), Null, Null, Null)
  {
    UserRecord.Make(row.key, NonNull(row.cols.username), Empty, Empty, Empty)
  }

  /**
    `userLogin`: with a connection and no SQL error, succeeds exactly when the
    first row with that username stores `hasher(password)`; success replaces
    the session with that row's id and name, failure changes nothing.
   */
  function UserLogin(st: State, conn: Connection, sha: Passwords.Sha256, username: string,
                     password: string, fault: Fault): (r: Step<bool>)
    ensures conn.NoConnection? || fault.SqlError? ==> r == Step(false, st)
    ensures r.next.db == st.db
    ensures r.result <==>
              && conn.Connected? && fault.NoFault?
              && exists i :: IsFirstNamed(st.db.users.rows, username, i)
                             && st.db.users.rows[i].cols.password == Passwords.Hasher(sha, password)
    ensures forall i :: r.result && IsFirstNamed(st.db.users.rows, username, i) ==>
              r.next.session == NonNull(SessionUser(st.db.users.rows[i]))
    ensures !r.result ==> r.next == st
  {
    if conn.NoConnection? then Step(false, st)
    else
      var hashed := Passwords.Hasher(sha, password);
      if fault.SqlError? then Step(false, st)
      else
        match FindFirst(st.db.users.rows, (row: Row<UserCols>) => row.cols.username == username)
        case NotFound => Step(false, st)
        case FoundAt(i) =>
          var row := st.db.users.rows[i];
          assert IsFirstNamed(st.db.users.rows, username, i);
          if row.cols.password == hashed then Step(true, st.(session := NonNull(SessionUser(row))))
          else Step(false, st)
  }

  /**
    `createNewUser`: appends one row `(username, email, hasher(password))`
    with a fresh key and reports whether a row was inserted. It never looks
    for an existing row with the same username. A null connection makes it
    throw a NullPointerException, so a connection is required.
   */
  function CreateNewUser(st: State, conn: Connection, sha: Passwords.Sha256, username: string,
                         email: string, password: string, effect: InsertEffect): (r: Step<bool>)
    requires conn.Connected?
    ensures r.result <==> effect.Inserted?
    ensures !r.result ==> r.next == st
    ensures r.next.session == st.session
    ensures r.next.db.stories == st.db.stories && r.next.db.characters == st.db.characters
    ensures r.next.db.traits == st.db.traits
    ensures r.result ==>
              && |r.next.db.users.rows| == |st.db.users.rows| + 1
              && r.next.db.users.rows[..|st.db.users.rows|] == st.db.users.rows
              && r.next.db.users.rows[|st.db.users.rows|].cols
                 == UserCols(username, email, Passwords.Hasher(sha, password))
    ensures r.result && WellFormed(st.db) ==> !HasKey(st.db.users, r.next.db.users.rows[|st.db.users.rows|].key)
    ensures WellFormed(st.db) ==> WellFormed(r.next.db)
  {
    var hash := Passwords.Hasher(sha, password);
    match effect
    case Inserted =>
      var (users, _) := Insert(st.db.users, UserCols(username, email, hash));
      Step(true, st.(db := st.db.(users := users)))
    case NoRowsAffected => Step(false, st)
    case InsertFailed(_) => Step(false, st)
  }

  /** `checkUsername`: a SELECT, so it reports and changes nothing else. */
  function CheckUsername(st: State, conn: Connection, username: string, fault: Fault): (r: bool)
    requires conn.Connected?
    ensures r <==> fault.NoFault? && HasUsername(st.db, username)
  {
    fault.NoFault? && FindFirst(st.db.users.rows, (row: Row<UserCols>) => row.cols.username == username).FoundAt?
  }

  /**
    `deleteUser`: removes the rows with that key and reports whether any was
    removed; the session is cleared exactly when a row was removed and the
    session user carries that id. Stories, characters and traits are left as
    they are: whether the schema cascades is not known.
   */
  function DeleteUser(st: State, conn: Connection, userId: int, fault: Fault): (r: Step<bool>)
    ensures conn.NoConnection? || fault.SqlError? ==> r == Step(false, st)
    ensures r.result <==> conn.Connected? && fault.NoFault? && HasKey(st.db.users, userId)
    ensures conn.Connected? && fault.NoFault? ==>
              forall x :: x in r.next.db.users.rows <==> x in st.db.users.rows && x.key != userId
    ensures r.next.db.users.nextKey == st.db.users.nextKey
    ensures r.next.db.stories == st.db.stories && r.next.db.characters == st.db.characters
    ensures r.next.db.traits == st.db.traits
    ensures r.next.session.Null? <==>
              st.session.Null? || (r.result && UserRecord.GetId(st.session.value) == userId)
    ensures r.next.session.NonNull? ==> r.next.session == st.session
    ensures WellFormed(st.db) ==> WellFormed(r.next.db)
  {
    if conn.NoConnection? || fault.SqlError? then Step(false, st)
    else
      var (users, rows) := DeleteWhere(st.db.users, (row: Row<UserCols>) => row.key == userId);
      var session :=
        if rows > 0 && st.session.NonNull? && UserRecord.GetId(st.session.value) == userId then Null
        else st.session;
      Step(rows > 0, State(st.db.(users := users), session))
  }

  /** Every stored password was produced by `hasher`. */
  ghost predicate AllHashed(db: Store, sha: Passwords.Sha256)
  {
    forall i :: 0 <= i < |db.users.rows| ==> exists p :: db.users.rows[i].cols.password == Passwords.Hasher(sha, p)
  }

  lemma CreateNewUserKeepsAllHashed(st: State, sha: Passwords.Sha256, username: string, email: string,
                                    password: string, effect: InsertEffect)
    requires AllHashed(st.db, sha)
    ensures AllHashed(CreateNewUser(st, Connected, sha, username, email, password, effect).next.db, sha)
  {
    var next := CreateNewUser(st, Connected, sha, username, email, password, effect).next;
    if effect.Inserted? {
      forall i | 0 <= i < |next.db.users.rows|
        ensures exists p :: next.db.users.rows[i].cols.password == Passwords.Hasher(sha, p)
      {
        if i < |st.db.users.rows| {
          assert next.db.users.rows[i] == st.db.users.rows[i];
        } else {
          assert next.db.users.rows[i].cols.password == Passwords.Hasher(sha, password);
        }
      }
    }
  }

  /**
    Because `hasher` ignores its argument, a login against a store whose
    passwords all came from `hasher` does not depend on the password typed.
   */
  lemma LoginIgnoresPassword(st: State, conn: Connection, sha: Passwords.Sha256, username: string,
                             p: string, q: string, fault: Fault)
    requires AllHashed(st.db, sha)
    ensures UserLogin(st, conn, sha, username, p, fault) == UserLogin(st, conn, sha, username, q, fault)
  {
    Passwords.HasherIgnoresPassword(sha, p, q);
    forall i | IsFirstNamed(st.db.users.rows, username, i)
      ensures st.db.users.rows[i].cols.password == Passwords.Hasher(sha, p)
    {
      var w :| st.db.users.rows[i].cols.password == Passwords.Hasher(sha, w);
      Passwords.HasherIgnoresPassword(sha, w, p);
    }
  }

  /**
    Registering a new username and then logging in with ANY password
    succeeds, and the session becomes the new row's id and name.
   */
  lemma RegisterThenLoginWithAnyPassword(st: State, sha: Passwords.Sha256, username: string,
                                         email: string, password: string, typed: string)
    requires WellFormed(st.db) && !HasUsername(st.db, username)
    ensures var s1 := CreateNewUser(st, Connected, sha, username, email, password, Inserted).next;
            var login := UserLogin(s1, Connected, sha, username, typed, NoFault);
            && login.result
            && login.next.session.NonNull?
            && UserRecord.GetName(login.next.session.value) == NonNull(username)
            && !HasKey(st.db.users, UserRecord.GetId(login.next.session.value))
  {
    var s1 := CreateNewUser(st, Connected, sha, username, email, password, Inserted).next;
    var n := |st.db.users.rows|;
    assert forall j :: 0 <= j < n ==> s1.db.users.rows[j] == st.db.users.rows[j];
    assert IsFirstNamed(s1.db.users.rows, username, n);
    Passwords.HasherIgnoresPassword(sha, password, typed);
  }

  /** A username no row carries never logs in. */
  lemma LoginUnknownUserFails(st: State, conn: Connection, sha: Passwords.Sha256, username: string,
                              password: string, fault: Fault)
    requires !HasUsername(st.db, username)
    ensures UserLogin(st, conn, sha, username, password, fault) == Step(false, st)
  {
  }

  /** Deleting the session user's own row logs them out. */
  lemma DeleteSelfClearsSession(st: State, fault: Fault)
    requires st.session.NonNull? && HasKey(st.db.users, SessionId(st)) && fault.NoFault?
    ensures DeleteUser(st, Connected, SessionId(st), fault).next.session.Null?
  {
  }
}

=== FILE: user_record.dfy ===
/**
  The `User` entity record: the session object the login stores. Its
  five-argument constructor keeps only the id and the name.
 */
module UserRecord {
  import opened JavaLang

  datatype User = User(
    userId: int,
    username: Nullable<string>,
    email: Nullable<string>,
    password: Nullable<string>,
    creationDate: Nullable<Timestamp>)

  /** The results of the five getters. */
  datatype View = View(
    id: int,
    name: Nullable<string>,
    email: Nullable<string>,
    pass: Nullable<string>,
    date: Nullable<Timestamp>)

  function Observe(u: User): View
  {
    View(GetId(u), GetName(u), GetEmail(u), GetPass(u), GetDate(u))
  }

  /** `new User()`: Java's defaults. */
  function Default(): (u: User)
    ensures Observe(u) == View(0, Null, Null, Null, Null)
  {
    User(0, Null, Null, Null, Null)
  }

  /**
    The five-argument constructor: the three Optionals are unwrapped into
    locals that are never stored, so email, password and date stay null.
   */
  function Make(id: int, name: Nullable<string>, emailOpt: Optional<string>,
                passOpt: Optional<string>, dateOpt: Optional<string>): (u: User)
    ensures Observe(u) == View(id, name, Null, Null, Null)
  {
    var email := OrElse(emailOpt, "");
    var password := OrElse(passOpt, "");
    var date := OrElse(dateOpt, "");
    User(id, name, Null, Null, Null)
  }

  function GetId(u: User): int
  {
    u.userId
  }

  function GetName(u: User): Nullable<string>
  {
    u.username
  }

  function GetEmail(u: User): Nullable<string>
  {
    u.email
  }

  function GetPass(u: User): Nullable<string>
  {
    u.password
  }

  function GetDate(u: User): Nullable<Timestamp>
  {
    u.creationDate
  }

  function SetId(u: User, id: int): (r: User)
    ensures Observe(r) == Observe(u).(id := id)
  {
    u.(userId := id)
  }

  function SetName(u: User, name: Nullable<string>): (r: User)
    ensures Observe(r) == Observe(u).(name := name)
  {
    u.(username := name)
  }

  function SetEmail(u: User, email: Nullable<string>): (r: User)
    ensures Observe(r) == Observe(u).(email := email)
  {
    u.(email := email)
  }

  function SetPass(u: User, pass: Nullable<string>): (r: User)
    ensures Observe(r) == Observe(u).(pass := pass)
  {
    u.(password := pass)
  }

  function SetDate(u: User, date: Nullable<Timestamp>): (r: User)
    ensures Observe(r) == Observe(u).(date := date)
  {
    u.(creationDate := date)
  }
}
